=== FILE: README.md ===
# wasm-bundle, modelled in Dafny

wasm-bundle embeds a bundle of resource files in a WebAssembly module. It reads
a list of paths, one per line. It packs those files into an archive, naming
each one relative to a prefix. It copies the module through, leaving out every
custom section with the target name (`.enarx.resources` by default). Last, it
appends a new custom section with that name that carries the archive.

This project models the four steps in `src/main.rs` and proves what each one
promises:

- **`read_paths`** is modelled by `PathList.ReadPaths`. A `LineReader` class
  hands out one line at a time, each with its `\n`. Every line is trimmed of
  trailing Unicode white space and becomes one path.
- **`create_archive`** is modelled by `ResourceArchive.CreateArchive`. Paths
  are Rust `Path` component sequences (`Paths.Components`). The filesystem is a
  map from path to `File`, `Dir` or `Other`; a path absent from the map does
  not exist. The tar builder is a `TarArchive` class holding a sequence of
  `(name, source)` entries and a `finished` flag. The method is proved against
  the function `ResourceArchive.Archive`.
- **`filter`** is modelled by `ModuleFilter.Filter`. It copies the preamble,
  then walks the sections of a fully buffered module
  (`ModuleFilter.CopySections`). The unconsumed suffix `rest` shrinks the way
  the parser's buffer drains. Every unit goes to a `ByteSink` except the
  custom sections named `section`. The method is proved against
  `ModuleFilter.Written` and `ModuleFilter.Filtered`, which are defined over
  the section walker `WasmBinary.ScanModule`.
- **`append`** is modelled by `SectionAppender.Append`. It writes id `0`, the
  LEB128 byte count, the name field and then the archive. The archive is
  copied from an `ArchiveFile` class in reads of at most 4096 bytes. A read
  may come back short, and it comes back empty only at the end of the file.
  The method is proved to write exactly `SectionAppender.Frame`.

The module structure is the part of `wasmparser` the filter relies on
(WebAssembly Core Specification, sections 5.5.2 Sections and 5.5.3 Custom
Section):

- the 8-byte preamble `00 61 73 6D 01 00 00 00`. The parser also accepts
  version 0x0d, `00 61 73 6D 0D 00 00 00`, the experimental version used
  before the binary format settled on version 1;
- then sections, each made of:
  - an id byte below 0x80, read as a 7-bit value. Id 0 is a custom section.
    Every other id, including one no version of the format defines (such
    as 0x7F), is a section that the parser reports and the filter copies
    through;
  - a `u32` byte count in LEB128, at most 5 bytes with a value below 2^32
    (section 5.2.2, Integers);
  - the payload.

A custom section must start with a name: a `u32` length followed by that many
bytes of well-formed UTF-8 (section 5.2.4, Names, and table 3-7 of the Unicode
Standard). The parser refuses a name longer than 100 000 bytes. The content of
any other section is treated as an opaque block.

Proved together (`Bundle.FilterAppendRoundTrip`, `Bundle.BundleRestores`):

- filtering a module and appending a frame gives a module that reads to its
  end;
- filtering that module again with the same name gives back the first
  filter's output;
- so a module with no section of that name comes back byte for byte.

These hold for a section name of at most 100 000 bytes. With a longer name the
appender still writes the frame, but the filter refuses the bundle
(`Bundle.LongNameRefused`).

Some of the code's behaviour is easy to misread:

- **A missing ancestor** fails with a NotFound I/O error. The `?` on
  `metadata` reports it before the kind is looked at. Only an ancestor that
  exists but is neither a file nor a directory gives InvalidInput.
- **The prefix** is removed by `Path::strip_prefix`. That compares whole
  components, not characters: `/a` is not a prefix of `/ab`, and `/t/` is a
  prefix of `/t/x`.
- **The filter drops every custom section with the target name**, not only the
  first.
- **The filter does not hold output back.** When it meets a malformed section,
  the units before it have already been written and the error is returned
  after them. `create_archive` likewise keeps the entries of the paths before
  a failing one. The tar builder finishes the archive when it is dropped, so
  the archive's end is written on every return, not only on success.

## Model

| member | source | states |
|---|---|---|
| Leb128.Encode | src/main.rs:114 | The encoder writes at least one byte; the last has no continuation bit and every earlier one has it |
| Leb128.Groups | src/main.rs:58-59 | An unbounded LEB128 read consumes at least one byte and no more than the input holds |
| Leb128.ReadVarU32 | src/main.rs:58-59 | A `u32` read yields a value below 2^32 from 1 to 5 bytes, and agrees with the unbounded read whenever it succeeds |
| Leb128.GroupsEncode | src/main.rs:119 | Whatever follows an encoding, the unbounded read recovers the encoded value and exactly the encoder's length |
| Leb128.EncodeFits | src/main.rs:119 | A value below 128^k is encoded in at most k bytes |
| Leb128.ReadEncode | src/main.rs:119 | Round trip: every `u32` the encoder writes reads back as itself and its encoded length (at most 5 bytes), whatever follows |
| Leb128.GroupsLocal | src/main.rs:58-59 | The unbounded read depends only on the bytes it consumes |
| Leb128.ReadLocal | src/main.rs:58-59 | A successful `u32` read depends only on the bytes it consumes |
| Leb128.GroupsTruncated | src/main.rs:58-59 | An encoding cut short never reads as a value |
| Leb128.ReadTruncated | src/main.rs:58-59 | A `u32` encoding cut short is an error |
| WasmBinary.ReadName | src/main.rs:81 | A custom section's name is well-formed UTF-8 of at most 100 000 bytes, and shorter than the payload |
| WasmBinary.ParseSection | src/main.rs:58-59 | A parsed section is a prefix of the input of at least two bytes; it is custom exactly when its id is 0, otherwise it carries its id; an id byte of 0x80 or more, and every other failure, gives InvalidInput |
| WasmBinary.ScanSections | src/main.rs:57-107 | The walk's error, if any, is InvalidInput |
| WasmBinary.ScanModule | src/main.rs:58-59 | A module walk fails only with InvalidInput; input without a preamble of version 1 or 0x0d reads no unit and fails with InvalidInput; otherwise the first unit is the header holding the input's own 8 preamble bytes |
| WasmBinary.ParseLocal | src/main.rs:58-59 | A section parse depends only on the section's own bytes: any buffer that starts with them parses to the same unit |
| WasmBinary.ParseFramed | src/main.rs:58-59 | The bytes of a parsed section, on their own, parse to the same section |
| WasmBinary.ParseTruncated | src/main.rs:58-59 | A section cut short at any point is rejected |
| WasmBinary.ScanCovers | src/main.rs:80-106 | The units the walk reads are a prefix of the input, and all of it when the walk succeeds |
| WasmBinary.ScanFramed | src/main.rs:80-106 | Every unit the walk reports parses back to itself |
| WasmBinary.ScanConcat | src/main.rs:80-106 | Walking framed units followed by any bytes gives those units, then the walk of the bytes |
| WasmBinary.ScanCut | src/main.rs:58-59 | Input that follows a walk and stops inside one of its sections ends in InvalidInput |
| WasmBinary.ModuleThen | src/main.rs:57-107 | A valid module followed by any bytes reads as its units followed by the walk of those bytes, ending as that walk ends |
| WasmBinary.ModuleAppend | src/main.rs:51-135 | Appending framed units to a valid module gives a valid module whose units are the old ones followed by the new |
| ModuleFilter.Kept | src/main.rs:80-102 | The kept units are no more than the input units, and none is a custom section with the target name |
| ModuleFilter.Written | src/main.rs:80-102 | What the filter writes starts with the input's preamble when the input has one, and is empty when it does not |
| ModuleFilter.Filtered | src/main.rs:51-109 | The filter succeeds exactly on a module that reads to its end, and fails only with InvalidInput |
| ModuleFilter.CopyUnit | src/main.rs:80-102 | One unit's bytes are written unless it is a custom section with the target name |
| ModuleFilter.CopySections | src/main.rs:57-107 | The output gains exactly the kept sections read before the walk stopped; it passes exactly when every section reads, and otherwise fails with InvalidInput |
| ModuleFilter.Filter | src/main.rs:51-109 | The output gains exactly the bytes of the kept units read before the walk stopped; it passes exactly when the whole module reads, and otherwise fails with InvalidInput |
| ModuleFilter.KeptAll | src/main.rs:80-102 | When no unit is dropped, all units are kept |
| ModuleFilter.KeptFrom | src/main.rs:80-102 | Every kept unit is an input unit |
| ModuleFilter.KeptAppend | src/main.rs:80-102 | Each unit is judged on its own, so keeping distributes over concatenation |
| ModuleFilter.KeptTwice | src/main.rs:80-102 | Keeping is idempotent |
| ModuleFilter.KeptFramed | src/main.rs:80-102 | Kept units of framed units are framed |
| ModuleFilter.ModuleCovers | src/main.rs:80-106 | A valid module is exactly its units' bytes, one after another |
| ModuleFilter.FilterPassThrough | src/main.rs:80-102 | A valid module with no custom section of the target name passes through byte for byte |
| ModuleFilter.FilterOutput | src/main.rs:80-102 | A successful filter's output is a valid module whose units are the input's units, in order and with the same bytes, minus every dropped one |
| ModuleFilter.FilterIdempotent | src/main.rs:51-109 | Filtering the output again with the same name changes nothing |
| ModuleFilter.FilterRejectsCut | src/main.rs:58-59 | A valid module cut short inside any section is rejected with InvalidInput |
| ModuleFilter.FilterRejectsPreamble | src/main.rs:58-59 | Input that does not start with a preamble of version 1 or 0x0d is rejected with InvalidInput |
| ModuleFilter.UnknownIdCopied | src/main.rs:99-101 | A module holding a section whose id no version of the format defines (0x7F) passes through unchanged |
| ModuleFilter.DraftVersionCopied | src/main.rs:58-59 | A preamble with the experimental version 0x0d is accepted and copied through unchanged |
| Bytes.ByteSink.WriteAll | src/main.rs:118-131 | A write appends all the given bytes to what was written before |
| SectionAppender.NameField | src/main.rs:112-115 | The name field is longer than the name |
| SectionAppender.NameFieldReads | src/main.rs:112-115 | The name field of a UTF-8 name of at most 100 000 bytes reads back as the name, whatever follows |
| SectionAppender.NameFieldTooLong | src/main.rs:112-115 | The name field of a longer name does not read back, whatever follows |
| SectionAppender.Frame | src/main.rs:118-131 | The frame starts with id 0 and ends with the archive, and its byte count covers exactly the bytes after the count |
| SectionAppender.ArchiveFile.SeekEnd | src/main.rs:116 | Seeking to the end reports the archive's size |
| SectionAppender.ArchiveFile.Rewind | src/main.rs:122 | Seeking to the start leaves the contents alone |
| SectionAppender.ArchiveFile.Read | src/main.rs:124-125 | A read returns the next at most `limit` bytes from the read position and advances past them; it is empty only at the end of the file |
| SectionAppender.Append | src/main.rs:111-135 | The writer gains exactly id 0, the LEB128 count of name field plus archive, the name field, then the whole archive; the archive is not changed |
| SectionAppender.FramePayload | src/main.rs:118-131 | Whatever follows a frame, it reads as id 0, a count equal to the name field's length plus the archive's, and exactly that many bytes, which are the name field and the archive |
| SectionAppender.FrameRefused | src/main.rs:112-131 | A frame whose name is longer than 100 000 bytes is refused by the section parser with InvalidInput |
| SectionAppender.FrameParses | src/main.rs:112-131 | The frame's count reads back as the name field's length plus the archive's, and the frame parses as one custom section named `section`, whatever follows it |
| SectionAppender.FrameFramed | src/main.rs:112-131 | The frame on its own parses back to itself |
| Bundle.FilterAppendRoundTrip | src/main.rs:51-135 | The filter's output with a frame appended is a valid module made of the kept units and then the frame; filtering it again gives the first output |
| Bundle.BundleRestores | src/main.rs:51-135 | For a valid module with no section of that name, filtering it, or filtering it with a frame appended, gives back the module itself |
| Bundle.LongNameRefused | src/main.rs:51-135 | With a name longer than 100 000 bytes, filtering the bundle the appender wrote fails with InvalidInput |
| Bundle.RebundleReplaces | src/main.rs:51-135 | Filtering a bundle with the same name and appending a new frame leaves only the new frame |
| Paths.PieceComponent | src/main.rs:42 | An empty piece or `.` gives no component, exactly; `..` gives the parent, exactly; any well-formed name gives that normal name |
| Paths.PiecesFrom | src/main.rs:42 | Every component read from the pieces after an open piece is a parent or a well-formed name |
| Paths.Pieces | src/main.rs:42 | Every component of the separated pieces is a parent or a well-formed name |
| Paths.PiecesFromWhole | src/main.rs:42 | Characters with no `/` only extend the open piece, which then gives one piece's component |
| Paths.PiecesFromSplit | src/main.rs:42 | A `/` closes the open piece: what follows it is read as a fresh path whose components come after |
| Paths.Components | src/main.rs:33-42 | The root comes first exactly for a path starting with `/`, and `.` exactly for `.` or `./…`; every later component is a parent or a well-formed name |
| Paths.PiecesSplit | src/main.rs:42 | A `/` splits the components: those of `a/b` are those of `a`, then those of `b` |
| Paths.DotPieces | src/main.rs:42 | The empty string and `.` have no components; `..` is the parent |
| Paths.OnePiece | src/main.rs:42 | A well-formed name with no `/` is one normal component |
| Paths.StripPrefix | src/main.rs:42 | Succeeds exactly when the base is a component-wise prefix of the path, and the base followed by the result is the path |
| Paths.StripJoined | src/main.rs:42 | Stripping a prefix undoes joining it on |
| Paths.StripWholeComponents | src/main.rs:42 | Stripping `/t/` from `/t/x` leaves `x` |
| Paths.StripPartialComponent | src/main.rs:42 | `/a` is not a prefix of `/ab` |
| ResourceArchive.TarArchive.AppendPathWithName | src/main.rs:43 | Adds one entry at the end |
| ResourceArchive.TarArchive.Finish | src/main.rs:46 | Marks the archive finished and keeps its entries |
| ResourceArchive.AncestorCheck | src/main.rs:33-41 | The check passes exactly when every ancestor exists and is a file or a directory; a NotFound failure means some ancestor is missing, an InvalidInput failure that some ancestor exists but is neither a file nor a directory |
| ResourceArchive.CheckAncestors | src/main.rs:33-41 | The loop over the ancestors, longest first, gives the ancestor check |
| ResourceArchive.EntryFor | src/main.rs:33-43 | An entry reads from its path, and the prefix followed by its name is the path; NotFound means a missing ancestor; InvalidInput means an ancestor that is neither a file nor a directory, or a path outside the prefix |
| ResourceArchive.Archive | src/main.rs:32-44 | At most one entry per path |
| ResourceArchive.CreateArchive | src/main.rs:29-49 | The archive gains exactly the entries of the paths before the first failing one; it passes exactly when no path fails, otherwise with that path's error; the end is written on every return |
| ResourceArchive.AncestorCheckFailure | src/main.rs:33-41 | A failing check names the longest bad ancestor: NotFound exactly when it is missing, InvalidInput exactly when it is neither a file nor a directory |
| ResourceArchive.EntryForSpec | src/main.rs:33-43 | A path is entered exactly when all its ancestors are acceptable and the prefix matches component-wise |
| ResourceArchive.EntryOutsidePrefix | src/main.rs:42 | A path outside the prefix fails with InvalidInput once its ancestors pass |
| ResourceArchive.ArchiveFirst | src/main.rs:32-44 | A non-empty archive starts with the first path's entry and goes on with the archive of the other paths |
| ResourceArchive.ArchiveInOrder | src/main.rs:32-44 | The i-th entry is the entry of the i-th path |
| ResourceArchive.ArchiveStopsAt | src/main.rs:32-44 | Without an error every path has an entry; with one, the path after the last entry is the first that fails, with that error |
| ResourceArchive.ArchiveComplete | src/main.rs:32-46 | The archive completes exactly when every path yields an entry |
| PathList.TrimEnd | src/main.rs:22 | The result is the longest prefix not ending in white space, and everything removed is white space |
| PathList.LineLength | src/main.rs:17 | A line runs up to and including the first `\n`, or to the end |
| PathList.Lines | src/main.rs:15-17 | A text has no more lines than characters, none exactly when it is empty, and no line is empty |
| PathList.LineReader.ReadLine | src/main.rs:17 | A read takes the next line from the input; it is empty exactly at the end |
| PathList.ReadPaths | src/main.rs:11-27 | The input is used up; there is one path per line, in order, each the line with trailing white space trimmed |
| PathList.LinesJoin | src/main.rs:15-24 | The lines put back together are the input |
| PathList.LinesShape | src/main.rs:17 | Lines are non-empty, hold `\n` only at their end, and all but the last end with one |
| PathList.LinesCount | src/main.rs:15-24 | The number of paths is the number of `\n`, plus one only when the input does not end with `\n` |
| PathList.PathsOnOneLine | src/main.rs:22 | No path contains `\n` |

## Left out

- The command line, argument defaults, the temporary archive file and the output file (`main`) are not modelled.
- I/O failures of the reads, writes and seeks are not modelled: every write succeeds, and a read fails only by returning fewer bytes. `std::fs::metadata` becomes a lookup in a map. Symlinks, permissions and what the OS makes of a trailing `/` are not modelled.
- `read_line` rejects input that is not UTF-8. The model reads text that has already been decoded, so that error path is not modelled.
- The tar format is not modelled. `append_path_with_name` and `finish` record abstract entries and a flag; the bytes of headers, padding and file contents are not modelled, and neither are tar's own errors. Two of them are reached with the default settings, and the model enters a path in both cases where the program fails inside `append_path_with_name`: a blank line in the path list, which gives an empty path and an empty entry name, and an absolute path with the default prefix `""`, which gives an absolute entry name that tar refuses.
- `wasmparser` checks more than the model does. The model checks only the module structure: the preamble, section ids, byte counts and custom-section names. The content of other sections, their order, and the code section's function-body framing are not checked.
- Streaming through `NeedMoreData` (the buffer growing and draining) is modelled on a fully buffered input. The output is the same whichever way the input arrives.
- Nested modules (the `ModuleCodeSectionEntry` arm and its parser stack) belong to the experimental module-linking proposal and are not modelled. The module-code section's id is below 0x80, so the model reads it as one opaque section, like every other non-custom section, and copies it through.
- ModuleFilter.Filter: the program writes the code section's header (id, size and body count) and each complete function body as soon as the parser reports them. So when a code section is malformed or cut short, it has written those bytes before the error. The model treats every non-custom section as one block, so its output on that failure path ends before the code section.
- SectionAppender.Append: requires the byte count (name field plus archive) to be below 2^64. The source adds two `u64` values there, which would wrap in a release build and panic in a debug build.
- Bundle.FilterAppendRoundTrip: assumes the section name is UTF-8, at most 100 000 bytes long, and that the byte count fits a `u32`. The first holds for every `&str`. A longer name or a larger count is one the parser rejects, so the bundle would not read back (`Bundle.LongNameRefused` proves this for the name).

=== FILE: append.dfy ===
/** The custom-section framer: writes a custom section named `section`
    whose payload, after the name, is the archive, read back from its file
    in chunks. */
module SectionAppender {
  import opened Bytes
  import opened Leb128
  import opened Utf8
  import opened WasmBinary

  /** The size of the buffer each read of the archive fills at most. */
  const ChunkSize: nat := 4096

  /** 2^64: the archive size and the section length are `u64` values. */
  const U64Limit: nat := 0x1_0000_0000_0000_0000

  /** The name field of the section: the name's length in LEB128, then the
      name's bytes. */
  function NameField(section: seq<Byte>): (r: seq<Byte>)
    ensures |section| < |r|
  {
    Encode(|section|) + section
  }

  /** The name field reads back as the name, whatever follows it, when the
      name is UTF-8 and no longer than the parser reads. */
  lemma NameFieldReads(section: seq<Byte>, tail: seq<Byte>)
    requires ValidUtf8(section) && |section| <= MaxNameSize
    ensures ReadName(NameField(section) + tail) == Some(section)
  {
    var e := Encode(|section|);
    var k: nat := |e|;
    var field := NameField(section) + tail;
    AppendAssoc(e, section, tail);
    ReadEncode(|section|, section + tail);
    AppendSplit(e, section + tail);
    AppendSplit(section, tail);
    assert field[k..k + |section|] == (section + tail)[..|section|];
    ReadNameAt(field, |section|, k);
  }

  /** A name longer than the parser reads does not read back, whatever
      follows it. */
  lemma NameFieldTooLong(section: seq<Byte>, tail: seq<Byte>)
    requires MaxNameSize < |section| < U32Limit
    ensures ReadName(NameField(section) + tail) == None
  {
    AppendAssoc(Encode(|section|), section, tail);
    ReadEncode(|section|, section + tail);
  }

  /** The whole custom section the framer writes: id 0, the byte count of
      everything after it, the name field, then the archive. */
  function Frame(section: seq<Byte>, archive: seq<Byte>): (r: seq<Byte>)
    ensures |r| == 1 + |Encode(|NameField(section)| + |archive|)| + |NameField(section)| + |archive|
    ensures r[0] == CustomId
    ensures r[|r| - |archive|..] == archive
  {
    [CustomId] + Encode(|NameField(section)| + |archive|) + NameField(section) + archive
  }

  /** The archive's backing file: its contents and the read position. */
  class ArchiveFile {
    var contents: seq<Byte>
    var cursor: nat

    constructor (contents: seq<Byte>)
      ensures this.contents == contents && cursor == 0
    {
      this.contents := contents;
      cursor := 0;
    }

    /** Seeks to the end, reporting the file's size. */
    method SeekEnd() returns (size: nat)
      modifies this
      ensures contents == old(contents)
      ensures size == |contents| && cursor == |contents|
    {
      cursor := |contents|;
      size := |contents|;
    }

    /** Seeks back to the start. */
    method Rewind()
      modifies this
      ensures contents == old(contents) && cursor == 0
    {
      cursor := 0;
    }

    /** Reads at most `limit` bytes from the read position. A read may
        return fewer bytes than are left, but it returns none only at the
        end of the file. */
    method Read(limit: nat) returns (chunk: seq<Byte>)
      requires cursor <= |contents| && 0 < limit
      modifies this
      ensures contents == old(contents)
      ensures cursor == old(cursor) + |chunk| <= |contents|
      ensures chunk == contents[old(cursor)..cursor]
      ensures |chunk| <= limit
      ensures chunk == [] <==> old(cursor) == |contents|
    {
      var left := |contents| - cursor;
      var n: nat :| n <= limit && n <= left && (n == 0 <==> left == 0);
      chunk := contents[cursor..cursor + n];
      cursor := cursor + n;
    }
  }

  /** Writes the custom section to `writer`: id 0, the byte count, the
      name field, then the archive copied chunk by chunk from its start.
      The byte count is a `u64` sum, so it must not overflow. */
  method Append(section: seq<Byte>, archive: ArchiveFile, writer: ByteSink)
    requires |NameField(section)| + |archive.contents| < U64Limit
    modifies archive, writer
    ensures archive.contents == old(archive.contents)
    ensures writer.bytes == old(writer.bytes) + Frame(section, old(archive.contents))
  {
    var header := Encode(|section|);
    header := header + section;
    var size := archive.SeekEnd();

    ghost var start := writer.bytes;
    ghost var count := Encode(size + |header|);
    writer.WriteAll([CustomId]);
    writer.WriteAll(Encode(size + |header|));
    writer.WriteAll(header);
    ghost var framed := writer.bytes;
    AppendAssoc(start, [CustomId], count);
    AppendAssoc(start, [CustomId] + count, header);
    assert framed == start + ([CustomId] + count + NameField(section));

    archive.Rewind();
    while true
      invariant archive.cursor <= |archive.contents| == size
      invariant archive.contents == old(archive.contents)
      invariant writer.bytes == framed + archive.contents[..archive.cursor]
      decreases |archive.contents| - archive.cursor
    {
      ghost var at := archive.cursor;
      var chunk := archive.Read(ChunkSize);
      if chunk == [] {
        break;
      }
      writer.WriteAll(chunk);
      AppendAssoc(framed, archive.contents[..at], chunk);
      assert archive.contents[..archive.cursor] == archive.contents[..at] + chunk;
    }
    assert archive.contents[..archive.cursor] == archive.contents;
    AppendAssoc(start, [CustomId] + count + NameField(section), archive.contents);
  }

  /** The layout of a frame, whatever follows it: id 0, then a byte count
      that reads back as the name field's length plus the archive's, then
      exactly that many bytes, which are the name field and the archive. */
  lemma FramePayload(section: seq<Byte>, archive: seq<Byte>, rest: seq<Byte>, len: nat, k: nat)
    requires len == |NameField(section)| + |archive| < U32Limit
    requires k == |Encode(len)|
    ensures 1 + k + len == |Frame(section, archive)|
    ensures (Frame(section, archive) + rest)[0] == CustomId
    ensures ReadVarU32((Frame(section, archive) + rest)[1..]) == Some((len, k))
    ensures (Frame(section, archive) + rest)[1 + k..1 + k + len] == NameField(section) + archive
    ensures (Frame(section, archive) + rest)[..1 + k + len] == Frame(section, archive)
  {
    var h := NameField(section);
    var e := Encode(len);
    var body := h + archive;
    var f := Frame(section, archive);
    // f == [0] + (e + body)
    AppendAssoc([CustomId] + e, h, archive);
    AppendAssoc([CustomId], e, body);
    var t := f + rest;
    // t == [0] + (e + (body + rest))
    AppendAssoc([CustomId], e + body, rest);
    AppendAssoc(e, body, rest);
    AppendSplit([CustomId], e + (body + rest));
    ReadEncode(len, body + rest);
    AppendSplit(e, body + rest);
    AppendSplit(body, rest);
    AppendSplit(f, rest);
  }

  /** Reading a frame back: whatever follows it, the section parser reads
      exactly the frame as one custom section carrying `section` as its
      name, and the byte count it decodes is the name field's length plus
      the archive's. The name must be UTF-8, as every `&str` is, and no
      longer than the parser reads, and the count must fit the parser's
      `u32`. */
  lemma FrameParses(section: seq<Byte>, archive: seq<Byte>, rest: seq<Byte>)
    requires ValidUtf8(section) && |section| <= MaxNameSize
    requires |NameField(section)| + |archive| < U32Limit
    ensures ReadVarU32(Frame(section, archive)[1..]).Some?
    ensures ReadVarU32(Frame(section, archive)[1..]).value.0 == |NameField(section)| + |archive|
    ensures ParseSection(Frame(section, archive) + rest)
         == Ok(Unit(Custom(section), Frame(section, archive)))
  {
    var len: nat := |NameField(section)| + |archive|;
    var k: nat := |Encode(len)|;
    var f := Frame(section, archive);
    FramePayload(section, archive, [], len, k);
    assert f + [] == f;
    var t := f + rest;
    FramePayload(section, archive, rest, len, k);
    NameFieldReads(section, archive);
    assert ReadName(t[1 + k..1 + k + len]) == Some(section);
    ParseCustom(t, len, k, section);
  }

  /** A frame whose name is longer than the parser reads is refused by the
      section parser, whatever follows it. */
  lemma FrameRefused(section: seq<Byte>, archive: seq<Byte>, rest: seq<Byte>)
    requires MaxNameSize < |section|
    requires |NameField(section)| + |archive| < U32Limit
    ensures ParseSection(Frame(section, archive) + rest) == Err(InvalidInput)
  {
    var len: nat := |NameField(section)| + |archive|;
    var t := Frame(section, archive) + rest;
    FramePayload(section, archive, rest, len, |Encode(len)|);
    NameFieldTooLong(section, archive);
    assert ReadName(t[1 + |Encode(len)|..1 + |Encode(len)| + len]) == None;
  }

  /** A frame is a framed unit: on its own it parses back as itself. */
  lemma FrameFramed(section: seq<Byte>, archive: seq<Byte>)
    requires ValidUtf8(section) && |section| <= MaxNameSize
    requires |NameField(section)| + |archive| < U32Limit
    ensures Framed(Unit(Custom(section), Frame(section, archive)))
  {
    FrameParses(section, archive, []);
    assert Frame(section, archive) + [] == Frame(section, archive);
  }
}

=== FILE: archive.dfy ===
/** Building the resource archive: every listed path is checked against the
    filesystem, ancestor by ancestor, and then entered in the archive under
    its name relative to the prefix, in the order the paths were listed. */
module ResourceArchive {
  import opened Bytes
  import opened Paths

  /** What the filesystem reports for a path that exists. */
  datatype FileKind = File | Dir | Other

  /** The filesystem: the kind of every existing path; a path that is not
      in the map does not exist. */
  type FileSystem = map<Path, FileKind>

  /** An archive entry: the name it is stored under and the path of the
      file or directory it is read from. */
  datatype Entry = Entry(name: Path, source: string)

  /** The archive's contents as entries, and whether its end has been
      written. */
  class TarArchive {
    var entries: seq<Entry>
    var finished: bool

    constructor ()
      ensures entries == [] && !finished
    {
      entries := [];
      finished := false;
    }

    /** Adds the file or directory at `source` under `name`. */
    method AppendPathWithName(source: string, name: Path)
      modifies this
      ensures entries == old(entries) + [Entry(name, source)]
      ensures finished == old(finished)
    {
      entries := entries + [Entry(name, source)];
    }

    /** Writes the end of the archive. */
    method Finish()
      modifies this
      ensures entries == old(entries) && finished
    {
      finished := true;
    }
  }

  /** An ancestor is acceptable when it exists and is a file or a
      directory. */
  predicate Acceptable(fs: FileSystem, ancestor: Path) {
    ancestor in fs && fs[ancestor] != Other
  }

  /** Checks the ancestors `c[..k]`, `c[..k-1]`, ..., `c[..1]`, longest
      first: the first one that does not exist is a NotFound error, the
      first that is neither a file nor a directory an InvalidInput error. */
  function AncestorCheck(fs: FileSystem, c: Path, k: nat): (r: Outcome)
    requires k <= |c|
    ensures r == Pass <==> forall j :: 1 <= j <= k ==> Acceptable(fs, c[..j])
    ensures r == Fail(NotFound) ==> exists j :: 1 <= j <= k && c[..j] !in fs
    ensures r == Fail(InvalidInput) ==> exists j :: 1 <= j <= k && c[..j] in fs && fs[c[..j]] == Other
  {
    if k == 0 then Pass
    else if c[..k] !in fs then Fail(NotFound)
    else if fs[c[..k]] == Other then Fail(InvalidInput)
    else AncestorCheck(fs, c, k - 1)
  }

  /** The entry a single path produces, or the error it stops the archive
      with: the ancestor check comes first, then the prefix is stripped. */
  function EntryFor(fs: FileSystem, path: string, prefix: string): (r: Result<Entry>)
    ensures r.Ok? ==> r.value.source == path && Components(prefix) + r.value.name == Components(path)
    ensures r == Err(NotFound) ==>
              exists j :: 1 <= j <= |Components(path)| && Components(path)[..j] !in fs
    ensures r == Err(InvalidInput) ==>
              (exists j :: 1 <= j <= |Components(path)| && Components(path)[..j] in fs
                           && fs[Components(path)[..j]] == Other)
              || !IsPrefix(Components(prefix), Components(path))
  {
    var c := Components(path);
    match AncestorCheck(fs, c, |c|)
    case Fail(e) => Err(e)
    case Pass =>
      match StripPrefix(c, Components(prefix))
      case None => Err(InvalidInput)
      case Some(name) => Ok(Entry(name, path))
  }

  /** The entries appended before the walk over the paths stopped, and the
      error that stopped it, if one did. */
  datatype Archived = Archived(entries: seq<Entry>, error: Option<Error>)

  /** The archive built from `paths`, one path at a time. */
  function Archive(fs: FileSystem, paths: seq<string>, prefix: string): (r: Archived)
    ensures |r.entries| <= |paths|
  {
    if paths == [] then Archived([], None)
    else match EntryFor(fs, paths[0], prefix)
      case Err(e) => Archived([], Some(e))
      case Ok(entry) =>
        var rest := Archive(fs, paths[1..], prefix);
        Archived([entry] + rest.entries, rest.error)
  }

  /** A path that passes its ancestor check and lies under the prefix is
      entered under what is left of it once the prefix is removed. */
  lemma EntryAccepted(fs: FileSystem, path: string, prefix: string, name: Path)
    requires AncestorCheck(fs, Components(path), |Components(path)|) == Pass
    requires StripPrefix(Components(path), Components(prefix)) == Some(name)
    ensures EntryFor(fs, path, prefix) == Ok(Entry(name, path))
  {
  }

  /** A path whose ancestor check fails, or that does not lie under the
      prefix, produces an error. */
  lemma EntryRefused(fs: FileSystem, path: string, prefix: string, e: Error)
    requires AncestorCheck(fs, Components(path), |Components(path)|) == Fail(e)
          || (AncestorCheck(fs, Components(path), |Components(path)|) == Pass
              && StripPrefix(Components(path), Components(prefix)).None? && e == InvalidInput)
    ensures EntryFor(fs, path, prefix) == Err(e)
  {
  }

  lemma ArchiveStep(fs: FileSystem, paths: seq<string>, prefix: string, entry: Entry)
    requires paths != [] && EntryFor(fs, paths[0], prefix) == Ok(entry)
    ensures Archive(fs, paths, prefix).entries == [entry] + Archive(fs, paths[1..], prefix).entries
    ensures Archive(fs, paths, prefix).error == Archive(fs, paths[1..], prefix).error
  {
  }

  lemma ArchiveStops(fs: FileSystem, paths: seq<string>, prefix: string, e: Error)
    requires paths != [] && EntryFor(fs, paths[0], prefix) == Err(e)
    ensures Archive(fs, paths, prefix) == Archived([], Some(e))
  {
  }

  /** Checks the ancestors of a path, longest first, as its entry needs:
      the result is the ancestor check of all of them. */
  method CheckAncestors(fs: FileSystem, c: Path) returns (r: Outcome)
    ensures r == AncestorCheck(fs, c, |c|)
  {
    var k := |c|;
    while k > 0
      invariant 0 <= k <= |c|
      invariant AncestorCheck(fs, c, |c|) == AncestorCheck(fs, c, k)
    {
      var ancestor := c[..k];
      if ancestor !in fs {
        return Fail(NotFound);
      }
      var kind := fs[ancestor];
      if kind != Dir && kind != File {
        return Fail(InvalidInput);
      }
      k := k - 1;
    }
    return Pass;
  }

  /** Enters every path of `paths` in `archive`, in order, under its name
      relative to `prefix`, and then finishes the archive. The first path
      that fails its check stops the walk with its error: the entries for
      the paths before it stay in the archive. The end is written on every
      return: on an early one by the builder being dropped, which finishes
      it. */
  method CreateArchive(paths: seq<string>, prefix: string, fs: FileSystem, archive: TarArchive)
    returns (r: Outcome)
    modifies archive
    ensures archive.entries == old(archive.entries) + Archive(fs, paths, prefix).entries
    ensures r.Pass? <==> Archive(fs, paths, prefix).error.None?
    ensures r.Fail? ==> Archive(fs, paths, prefix).error == Some(r.error)
    ensures archive.finished
  {
    ghost var goal := old(archive.entries) + Archive(fs, paths, prefix).entries;
    ghost var outcome := Archive(fs, paths, prefix).error;
    ghost var unfinished := archive.finished;
    var base := Components(prefix);
    var todo := paths;
    while todo != []
      invariant archive.entries + Archive(fs, todo, prefix).entries == goal
      invariant Archive(fs, todo, prefix).error == outcome
      invariant archive.finished == unfinished
      decreases |todo|
    {
      var path := todo[0];
      var c := Components(path);
      var checked := CheckAncestors(fs, c);
      if checked.Fail? {
        EntryRefused(fs, path, prefix, checked.error);
        ArchiveStops(fs, todo, prefix, checked.error);
        assert archive.entries + [] == goal;
        archive.Finish();
        return checked;
      }
      var stripped := StripPrefix(c, base);
      if stripped.None? {
        EntryRefused(fs, path, prefix, InvalidInput);
        ArchiveStops(fs, todo, prefix, InvalidInput);
        assert archive.entries + [] == goal;
        archive.Finish();
        return Fail(InvalidInput);
      }
      ghost var before := archive.entries;
      ghost var entry := Entry(stripped.value, path);
      EntryAccepted(fs, path, prefix, stripped.value);
      ArchiveStep(fs, todo, prefix, entry);
      archive.AppendPathWithName(path, stripped.value);
      Regroup(before, [entry], Archive(fs, todo, prefix).entries,
              Archive(fs, todo[1..], prefix).entries, goal);
      todo := todo[1..];
    }
    assert archive.entries + [] == goal;
    archive.Finish();
    return Pass;
  }

  /** When the ancestor check fails, it names the longest unacceptable
      ancestor: every longer one is acceptable, and the error says whether
      that ancestor is missing (NotFound) or neither a file nor a directory
      (InvalidInput). */
  lemma {:induction false} AncestorCheckFailure(fs: FileSystem, c: Path, k: nat) returns (j: nat)
    requires k <= |c| && AncestorCheck(fs, c, k).Fail?
    ensures 1 <= j <= k
    ensures forall m :: j < m <= k ==> Acceptable(fs, c[..m])
    ensures AncestorCheck(fs, c, k) == Fail(NotFound) <==> c[..j] !in fs
    ensures AncestorCheck(fs, c, k) == Fail(InvalidInput) <==> c[..j] in fs && fs[c[..j]] == Other
  {
    if c[..k] !in fs || fs[c[..k]] == Other {
      j := k;
    } else {
      j := AncestorCheckFailure(fs, c, k - 1);
    }
  }

  /** A path is entered exactly when all its ancestors, itself included,
      are files or directories and the prefix is a prefix of it component
      for component. */
  lemma EntryForSpec(fs: FileSystem, path: string, prefix: string)
    ensures EntryFor(fs, path, prefix).Ok?
        <==> (forall j :: 1 <= j <= |Components(path)| ==> Acceptable(fs, Components(path)[..j]))
             && IsPrefix(Components(prefix), Components(path))
  {
  }

  /** A path outside the prefix is refused with InvalidInput once its
      ancestors are found acceptable. */
  lemma EntryOutsidePrefix(fs: FileSystem, path: string, prefix: string)
    requires forall j :: 1 <= j <= |Components(path)| ==> Acceptable(fs, Components(path)[..j])
    requires !IsPrefix(Components(prefix), Components(path))
    ensures EntryFor(fs, path, prefix) == Err(InvalidInput)
  {
  }

  /** Every entry in the archive is the entry of the path at the same
      position: one entry per path, in the order the paths were listed. */
  lemma {:induction false} ArchiveInOrder(fs: FileSystem, paths: seq<string>, prefix: string)
    ensures forall i :: 0 <= i < |Archive(fs, paths, prefix).entries| ==>
              EntryFor(fs, paths[i], prefix) == Ok(Archive(fs, paths, prefix).entries[i])
  {
    forall i | 0 <= i < |Archive(fs, paths, prefix).entries|
      ensures EntryFor(fs, paths[i], prefix) == Ok(Archive(fs, paths, prefix).entries[i])
    {
      ArchiveEntry(fs, paths, prefix, i);
    }
  }

  lemma {:induction false} ArchiveEntry(fs: FileSystem, paths: seq<string>, prefix: string, i: nat)
    requires i < |Archive(fs, paths, prefix).entries|
    ensures i < |paths| && EntryFor(fs, paths[i], prefix) == Ok(Archive(fs, paths, prefix).entries[i])
    decreases i
  {
    ArchiveFirst(fs, paths, prefix);
    if i > 0 {
      ArchiveEntry(fs, paths[1..], prefix, i - 1);
      assert paths[i] == paths[1..][i - 1];
    }
  }

  /** A non-empty archive starts with the entry of the first path and goes
      on with the archive of the others. */
  lemma ArchiveFirst(fs: FileSystem, paths: seq<string>, prefix: string)
    requires Archive(fs, paths, prefix).entries != []
    ensures paths != [] && EntryFor(fs, paths[0], prefix) == Ok(Archive(fs, paths, prefix).entries[0])
    ensures Archive(fs, paths, prefix).entries[1..] == Archive(fs, paths[1..], prefix).entries
  {
  }

  /** The walk stops only at a failing path: without an error every path
      has its entry; with one, the path after the last entry is the first
      that fails, with that error, and nothing is entered for it or for
      any path after it. */
  lemma {:induction false} ArchiveStopsAt(fs: FileSystem, paths: seq<string>, prefix: string)
    ensures Archive(fs, paths, prefix).error.None? ==> |Archive(fs, paths, prefix).entries| == |paths|
    ensures Archive(fs, paths, prefix).error.Some? ==>
              |Archive(fs, paths, prefix).entries| < |paths|
              && EntryFor(fs, paths[|Archive(fs, paths, prefix).entries|], prefix)
                 == Err(Archive(fs, paths, prefix).error.value)
  {
    if paths != [] {
      var first := EntryFor(fs, paths[0], prefix);
      if first.Ok? {
        var rest := paths[1..];
        ArchiveStopsAt(fs, rest, prefix);
        ArchiveStep(fs, paths, prefix, first.value);
        var n := |Archive(fs, rest, prefix).entries|;
        assert |Archive(fs, paths, prefix).entries| == n + 1;
        if Archive(fs, rest, prefix).error.Some? {
          assert paths[n + 1] == rest[n];
        }
      } else {
        ArchiveStops(fs, paths, prefix, first.error);
      }
    }
  }

  /** The archive is complete, with no error, exactly when every path
      produces an entry. */
  lemma {:induction false} ArchiveComplete(fs: FileSystem, paths: seq<string>, prefix: string)
    ensures Archive(fs, paths, prefix).error.None?
        <==> forall i :: 0 <= i < |paths| ==> EntryFor(fs, paths[i], prefix).Ok?
  {
    ArchiveInOrder(fs, paths, prefix);
    ArchiveStopsAt(fs, paths, prefix);
  }
}

=== FILE: bytes.dfy ===
/** Bytes, the writable byte sink the rewriter writes its output to, and
    the error kinds the core reports. */
module Bytes {

  /** An octet. */
  type Byte = b: int | 0 <= b < 256

  /** The two error kinds the core surfaces: malformed input (a bad module,
      a path that is neither a file nor a directory, a path outside the
      prefix) and an I/O failure such as a path that does not exist. */
  datatype Error = InvalidInput | NotFound

  datatype Option<T> = None | Some(value: T)

  datatype Result<T> = Ok(value: T) | Err(error: Error)

  /** The outcome of an operation whose product goes to a sink. */
  datatype Outcome = Pass | Fail(error: Error)

  /** A writer that only ever grows: everything written so far, in order. */
  class ByteSink {
    var bytes: seq<Byte>

    constructor ()
      ensures bytes == []
    {
      bytes := [];
    }

    /** Appends all of `data`; a write failure is not modelled. */
    method WriteAll(data: seq<Byte>)
      modifies this
      ensures bytes == old(bytes) + data
    {
      bytes := bytes + data;
    }
  }

  /** Concatenation regroups freely; stated once so that proofs need not
      rediscover it among other facts about the same sequences. */
  lemma AppendAssoc<T>(a: seq<T>, b: seq<T>, c: seq<T>)
    ensures (a + b) + c == a + (b + c)
  {
  }

  /** Cutting a sequence in two and joining the halves gives it back. */
  lemma TakeDrop<T>(s: seq<T>, n: nat)
    requires n <= |s|
    ensures s[..n] + s[n..] == s
  {
  }

  /** The two halves of a concatenation are recovered by slicing it. */
  lemma AppendSplit<T>(a: seq<T>, b: seq<T>)
    ensures (a + b)[..|a|] == a && (a + b)[|a|..] == b
  {
  }

  /** A slice of a prefix, or a prefix of a suffix, is a slice of the whole. */
  lemma Slices<T>(s: seq<T>, n: nat, i: nat, j: nat)
    requires i <= j <= n <= |s|
    ensures s[..n][i..j] == s[i..j] && s[i..][..j - i] == s[i..j]
  {
  }

  /** Moving the front `d` of what is still to come onto what is done keeps
      the whole: the step every copying loop takes. */
  lemma Regroup<T>(done: seq<T>, d: seq<T>, todo: seq<T>, todo': seq<T>, whole: seq<T>)
    requires done + todo == whole && todo == d + todo'
    ensures (done + d) + todo' == whole
  {
  }
}

=== FILE: filter.dfy ===
/** The section filter: copies a module to a sink unit by unit, leaving out
    every custom section whose name is the target name. */
module ModuleFilter {
  import opened Bytes
  import opened Leb128
  import opened WasmBinary

  /** The filter leaves a unit out exactly when it is a custom section whose
      name equals `section`. */
  predicate Dropped(section: seq<Byte>, u: Unit) {
    u.kind.Custom? && u.kind.name == section
  }

  /** The units the filter copies through, in their original order. */
  function Kept(section: seq<Byte>, us: seq<Unit>): (r: seq<Unit>)
    ensures |r| <= |us|
    ensures forall i :: 0 <= i < |r| ==> !Dropped(section, r[i])
  {
    if us == [] then []
    else (if Dropped(section, us[0]) then [] else [us[0]]) + Kept(section, us[1..])
  }

  /** Everything the filter writes for `input`: the bytes of every unit it
      read before it stopped, except the dropped ones. */
  function Written(section: seq<Byte>, input: seq<Byte>): (r: seq<Byte>)
    ensures HasPreamble(input) ==> PreambleSize <= |r| && r[..PreambleSize] == input[..PreambleSize]
    ensures !HasPreamble(input) ==> r == []
  {
    var units := ScanModule(input).units;
    if units != [] then
      KeptCons(section, units[0], units[1..]);
      assert units == [units[0]] + units[1..];
      FlattenAppend([units[0]], Kept(section, units[1..]));
      assert Flatten([units[0]]) == input[..PreambleSize] + Flatten([]);
      Flatten(Kept(section, units))
    else Flatten(Kept(section, units))
  }

  /** What the filter still has to write once it has reached `rest`. */
  function Pending(section: seq<Byte>, rest: seq<Byte>): seq<Byte>
  {
    Flatten(Kept(section, ScanSections(rest).units))
  }

  /** What the filter produces: the written bytes when the whole module
      could be read, the error otherwise. */
  function Filtered(section: seq<Byte>, input: seq<Byte>): (r: Result<seq<Byte>>)
    ensures r.Ok? <==> ValidModule(input)
    ensures r.Err? ==> r.error == InvalidInput
  {
    var sc := ScanModule(input);
    if sc.error.None? then Ok(Written(section, input)) else Err(sc.error.value)
  }

  lemma KeptCons(section: seq<Byte>, u: Unit, vs: seq<Unit>)
    ensures Kept(section, [u] + vs)
         == (if Dropped(section, u) then [] else [u]) + Kept(section, vs)
  {
    assert ([u] + vs)[1..] == vs;
  }

  /** One step of the walk: what is still to be written from `rest` is the
      first unit's bytes, unless it is dropped, then what is still to be
      written after it. */
  lemma WrittenStep(section: seq<Byte>, rest: seq<Byte>, u: Unit)
    requires rest != [] && ParseSection(rest) == Ok(u)
    ensures 2 <= |u.bytes| <= |rest|
    ensures Pending(section, rest)
         == (if Dropped(section, u) then [] else u.bytes) + Pending(section, rest[|u.bytes|..])
    ensures ScanSections(rest).error == ScanSections(rest[|u.bytes|..]).error
  {
    var tail := ScanSections(rest[|u.bytes|..]).units;
    ScanStep(rest, u);
    KeptCons(section, u, tail);
    FlattenAppend(if Dropped(section, u) then [] else [u], Kept(section, tail));
  }

  /** Where the walk stops, at the end of the input or at a section that
      cannot be read, nothing more is written. */
  lemma WalkStops(section: seq<Byte>, rest: seq<Byte>)
    requires rest == [] || ParseSection(rest).Err?
    ensures Pending(section, rest) == []
    ensures ScanSections(rest).error == if rest == [] then None else Some(InvalidInput)
  {
  }

  /** The first thing written is the preamble, which is never dropped. */
  lemma WrittenStart(section: seq<Byte>, input: seq<Byte>)
    requires HasPreamble(input)
    ensures Written(section, input) == input[..PreambleSize] + Pending(section, input[PreambleSize..])
    ensures ScanModule(input).error == ScanSections(input[PreambleSize..]).error
  {
    var all := ScanSections(input[PreambleSize..]);
    var head := Unit(Header, input[..PreambleSize]);
    KeptCons(section, head, all.units);
    FlattenAppend([head], Kept(section, all.units));
  }

  /** Writes one parsed unit to `output` unless it is a custom section
      named `section`. */
  method CopyUnit(section: seq<Byte>, u: Unit, output: ByteSink)
    modifies output
    ensures output.bytes == old(output.bytes) + (if Dropped(section, u) then [] else u.bytes)
  {
    match u.kind
    case Custom(name) =>
      if name != section {
        output.WriteAll(u.bytes);
      }
    case _ =>
      output.WriteAll(u.bytes);
  }

  /** Walks the sections in `buf`, writing to `output` every one except the
      custom sections named `section`; a section that cannot be read stops
      the walk with InvalidInput, after the sections before it have been
      written. Like the parser's buffer, `buf` holds what has not been
      consumed yet. */
  method CopySections(section: seq<Byte>, buf: seq<Byte>, output: ByteSink) returns (r: Outcome)
    modifies output
    ensures output.bytes == old(output.bytes) + Pending(section, buf)
    ensures r.Pass? <==> ScanSections(buf).error.None?
    ensures r.Fail? ==> r.error == InvalidInput
  {
    ghost var goal := old(output.bytes) + Pending(section, buf);
    ghost var outcome := ScanSections(buf).error;
    var rest := buf;
    while rest != []
      invariant output.bytes + Pending(section, rest) == goal
      invariant ScanSections(rest).error == outcome
      decreases |rest|
    {
      var parsed := ParseSection(rest);
      match parsed
      case Err(e) =>
        WalkStops(section, rest);
        assert output.bytes == goal;
        return Fail(e);
      case Ok(u) =>
        ghost var before := output.bytes;
        WrittenStep(section, rest, u);
        CopyUnit(section, u, output);
        Regroup(before, if Dropped(section, u) then [] else u.bytes,
                Pending(section, rest), Pending(section, rest[|u.bytes|..]), goal);
        rest := rest[|u.bytes|..];
    }
    WalkStops(section, rest);
    assert output.bytes == goal;
    return Pass;
  }

  /** Walks `input`, writing to `output` every unit except the custom
      sections named `section`: the preamble first, which is never
      dropped, then the sections. A unit that cannot be read stops the
      walk with InvalidInput, after the units before it have been
      written. */
  method Filter(section: seq<Byte>, input: seq<Byte>, output: ByteSink) returns (r: Outcome)
    modifies output
    ensures output.bytes == old(output.bytes) + Written(section, input)
    ensures r.Pass? <==> Filtered(section, input).Ok?
    ensures r.Fail? ==> r.error == Filtered(section, input).error == InvalidInput
  {
    if !HasPreamble(input) {
      assert output.bytes == old(output.bytes) + Written(section, input);
      return Fail(InvalidInput);
    }
    WrittenStart(section, input);
    // The version payload is not a custom section: it is copied through.
    output.WriteAll(input[..PreambleSize]);
    r := CopySections(section, input[PreambleSize..], output);
    AppendAssoc(old(output.bytes), input[..PreambleSize], Pending(section, input[PreambleSize..]));
  }

  /** Nothing is left out of units none of which is dropped. */
  lemma {:induction false} KeptAll(section: seq<Byte>, us: seq<Unit>)
    requires forall i :: 0 <= i < |us| ==> !Dropped(section, us[i])
    ensures Kept(section, us) == us
  {
    if us != [] {
      KeptAll(section, us[1..]);
      assert us == [us[0]] + us[1..];
    }
  }

  /** Every kept unit is one of the input units. */
  lemma {:induction false} KeptFrom(section: seq<Byte>, us: seq<Unit>)
    ensures forall i :: 0 <= i < |Kept(section, us)| ==> Kept(section, us)[i] in us
  {
    if us != [] {
      KeptFrom(section, us[1..]);
      var head := if Dropped(section, us[0]) then [] else [us[0]];
      var k := Kept(section, us);
      assert k == head + Kept(section, us[1..]);
      forall i | 0 <= i < |k| ensures k[i] in us {
        if i < |head| {
          assert k[i] == us[0];
        } else {
          assert k[i] == Kept(section, us[1..])[i - |head|];
        }
      }
    }
  }

  /** The filter treats each unit on its own. */
  lemma {:induction false} KeptAppend(section: seq<Byte>, us: seq<Unit>, vs: seq<Unit>)
    ensures Kept(section, us + vs) == Kept(section, us) + Kept(section, vs)
  {
    if us == [] {
      assert us + vs == vs;
    } else {
      ConsAppend(us, vs);
      KeptCons(section, us[0], us[1..] + vs);
      KeptAppend(section, us[1..], vs);
      KeptCons(section, us[0], us[1..]);
      assert us == [us[0]] + us[1..];
      AppendAssoc(if Dropped(section, us[0]) then [] else [us[0]],
                  Kept(section, us[1..]), Kept(section, vs));
    }
  }

  /** Filtering twice is filtering once. */
  lemma KeptTwice(section: seq<Byte>, us: seq<Unit>)
    ensures Kept(section, Kept(section, us)) == Kept(section, us)
  {
    KeptAll(section, Kept(section, us));
  }

  /** Kept units of framed units are framed. */
  lemma KeptFramed(section: seq<Byte>, us: seq<Unit>)
    requires forall i :: 0 <= i < |us| ==> Framed(us[i])
    ensures forall i :: 0 <= i < |Kept(section, us)| ==> Framed(Kept(section, us)[i])
  {
    KeptFrom(section, us);
  }

  /** A valid module is exactly the bytes of its units. */
  lemma ModuleCovers(input: seq<Byte>)
    requires ValidModule(input)
    ensures Flatten(ScanModule(input).units) == input
  {
    var body := input[PreambleSize..];
    var rest := ScanSections(body);
    ScanCovers(body);
    assert Flatten(rest.units) == body;
    var head := [Unit(Header, input[..PreambleSize])];
    FlattenAppend(head, rest.units);
    assert Flatten(head) == input[..PreambleSize];
    assert ScanModule(input).units == head + rest.units;
    assert input == input[..PreambleSize] + body;
  }

  /** A module with no custom section named `section` passes through the
      filter byte for byte. */
  lemma FilterPassThrough(section: seq<Byte>, input: seq<Byte>)
    requires ValidModule(input)
    requires forall i :: 0 <= i < |ScanModule(input).units| ==> !Dropped(section, ScanModule(input).units[i])
    ensures Filtered(section, input) == Ok(input)
  {
    KeptAll(section, ScanModule(input).units);
    ModuleCovers(input);
  }

  /** Walks the output of a successful filter: it is a valid module whose
      units are those of the input, in the same order and with the same
      bytes, minus every custom section named `section`. */
  lemma FilterOutput(section: seq<Byte>, input: seq<Byte>)
    requires Filtered(section, input).Ok?
    ensures ScanModule(Filtered(section, input).value)
         == Scanned(Kept(section, ScanModule(input).units), None)
  {
    var out := Filtered(section, input).value;
    var pre := input[..PreambleSize];
    var rest := ScanSections(input[PreambleSize..]).units;
    var k := Kept(section, rest);
    WrittenStart(section, input);
    assert out == pre + Flatten(k);
    ScanFramed(input[PreambleSize..]);
    KeptFramed(section, rest);
    ScanConcat(k, []);
    assert Flatten(k) + [] == Flatten(k);
    assert out[..PreambleSize] == pre && out[PreambleSize..] == Flatten(k);
    assert k + [] == k;
    KeptCons(section, Unit(Header, pre), rest);
  }

  /** The filter is idempotent: filtering its own output with the same
      name changes nothing. */
  lemma FilterIdempotent(section: seq<Byte>, input: seq<Byte>)
    requires Filtered(section, input).Ok?
    ensures Filtered(section, Filtered(section, input).value) == Filtered(section, input)
  {
    var out := Filtered(section, input).value;
    var us := ScanModule(input).units;
    FilterOutput(section, input);
    KeptTwice(section, us);
    assert ScanModule(out).units == Kept(section, us);
  }

  /** A module cut short inside one of its sections is rejected with
      InvalidInput; nothing is silently accepted. */
  lemma FilterRejectsCut(section: seq<Byte>, input: seq<Byte>, i: nat, j: nat)
    requires ValidModule(input)
    requires 1 <= i < |ScanModule(input).units|
    requires 0 < j < |ScanModule(input).units[i].bytes|
    ensures Filtered(section, Flatten(ScanModule(input).units[..i])
                              + ScanModule(input).units[i].bytes[..j]) == Err(InvalidInput)
  {
    var us := ScanModule(input).units;
    var pre := input[..PreambleSize];
    var body := input[PreambleSize..];
    var rest := ScanSections(body).units;
    var head := [Unit(Header, pre)];
    assert us == head + rest;
    assert us[..i] == head + rest[..i - 1];
    assert us[i] == rest[i - 1];
    FlattenAppend(head, rest[..i - 1]);
    assert Flatten(head) == pre;
    var tail := Flatten(rest[..i - 1]) + rest[i - 1].bytes[..j];
    var cut := Flatten(us[..i]) + us[i].bytes[..j];
    assert cut == pre + tail;
    assert cut[..PreambleSize] == pre && cut[PreambleSize..] == tail;
    ScanCut(body, i - 1, j);
    assert ScanModule(cut).error == Some(InvalidInput);
  }

  /** Anything that does not start with a preamble of version 1 or 0x0d
      is rejected. */
  lemma FilterRejectsPreamble(section: seq<Byte>, input: seq<Byte>)
    requires !HasPreamble(input)
    ensures Filtered(section, input) == Err(InvalidInput)
  {
  }

  /** A section whose id no version of the binary format defines is still
      a section: a module holding one, here id 0x7F with an empty payload,
      passes through the filter unchanged. */
  lemma UnknownIdCopied(section: seq<Byte>)
    ensures Filtered(section, Preamble + [0x7F, 0]) == Ok(Preamble + [0x7F, 0])
  {
    var input := Preamble + [0x7F, 0];
    var t: seq<Byte> := [0x7F, 0];
    assert input[..PreambleSize] == Preamble && input[PreambleSize..] == t;
    assert t[1..] == [0];
    assert ReadVarU32([0]) == Some((0, 1));
    ParseStandard(t, 0, 1);
    var u := Unit(Standard(0x7F), t);
    assert t[..2] == t;
    assert t[|u.bytes|..] == [];
    ScanStep(t, u);
    assert ScanSections(t) == Scanned([u], None);
    assert ScanModule(input).units == [Unit(Header, Preamble), u];
    FilterPassThrough(section, input);
  }

  /** A module with the experimental version 0x0d is read like one of
      version 1: the bare 0x0d preamble passes through the filter
      unchanged. */
  lemma DraftVersionCopied(section: seq<Byte>)
    ensures Filtered(section, DraftPreamble) == Ok(DraftPreamble)
  {
    assert DraftPreamble[..PreambleSize] == DraftPreamble;
    assert DraftPreamble[PreambleSize..] == [];
    assert ScanModule(DraftPreamble).units == [Unit(Header, DraftPreamble)];
    FilterPassThrough(section, DraftPreamble);
  }
}

=== FILE: leb128.dfy ===
/** Unsigned LEB128 (section 5.2.2, Integers, of the WebAssembly Core
    Specification): the encoder used for every length the appender writes,
    and the bounded `u32` decoder the module walker reads lengths with. */
module Leb128 {
  import opened Bytes

  /** 2^32: every decoded `u32` lies below it. */
  const U32Limit: nat := 0x1_0000_0000

  /** The most bytes a `u32` may take: ceil(32 / 7). */
  const MaxU32Bytes: nat := 5

  /** Unsigned LEB128 as written by the encoder: seven bits per byte, least
      significant group first, the high bit set on every byte but the last,
      and no more bytes than the value needs. */
  function Encode(n: nat): (r: seq<Byte>)
    ensures 1 <= |r|
    ensures r[|r| - 1] < 128
    ensures forall i :: 0 <= i < |r| - 1 ==> 128 <= r[i]
    decreases n
  {
    if n < 128 then [n] else [n % 128 + 128] + Encode(n / 128)
  }

  /** Decodes unsigned LEB128 from the front of `s`, with no bound on its
      size: the value, and the number of bytes up to and including the
      first one without the continuation bit. None when every byte has it. */
  function Groups(s: seq<Byte>): (r: Option<(nat, nat)>)
    ensures r.Some? ==> 1 <= r.value.1 <= |s|
  {
    if s == [] then None
    else if s[0] < 128 then Some((s[0], 1))
    else match Groups(s[1..])
      case None => None
      case Some((v, n)) => Some((s[0] - 128 + 128 * v, n + 1))
  }

  /** Reads a `u32` in LEB128 from the front of `s`: the value and the
      number of bytes it took. It takes at most five bytes and its value
      lies below 2^32, so a fifth byte may carry only the low four bits;
      anything else is an error. Padded encodings are accepted, as the
      standard allows. */
  function ReadVarU32(s: seq<Byte>): (r: Option<(nat, nat)>)
    ensures r.Some? ==> r.value.0 < U32Limit
    ensures r.Some? ==> 1 <= r.value.1 <= |s| && r.value.1 <= MaxU32Bytes
    ensures r.Some? ==> Groups(s) == r
  {
    match Groups(s)
    case None => None
    case Some((v, n)) => if n <= MaxU32Bytes && v < U32Limit then Some((v, n)) else None
  }

  lemma {:induction false} GroupsEncode(n: nat, rest: seq<Byte>)
    ensures Groups(Encode(n) + rest) == Some((n, |Encode(n)|))
    decreases n
  {
    var s := Encode(n) + rest;
    if n >= 128 {
      AppendAssoc([n % 128 + 128], Encode(n / 128), rest);
      assert s[1..] == Encode(n / 128) + rest;
      GroupsEncode(n / 128, rest);
    }
  }

  /** 128 to the power `k`. */
  function Pow128(k: nat): (r: nat)
    ensures 1 <= r
  {
    if k == 0 then 1 else 128 * Pow128(k - 1)
  }

  /** A value below 128^k takes at most `k` bytes. */
  lemma {:induction false} EncodeFits(n: nat, k: nat)
    requires 1 <= k && n < Pow128(k)
    ensures |Encode(n)| <= k
    decreases n
  {
    if n >= 128 {
      assert Pow128(0) == 1;
      assert Pow128(k) == 128 * Pow128(k - 1);
      assert 1 <= n / 128 < Pow128(k - 1);
      EncodeFits(n / 128, k - 1);
    }
  }

  /** Round trip: every `u32` value the encoder writes, followed by any
      bytes at all, reads back as that value and exactly the encoder's
      length, which is at most five bytes. */
  lemma ReadEncode(n: nat, rest: seq<Byte>)
    requires n < U32Limit
    ensures ReadVarU32(Encode(n) + rest) == Some((n, |Encode(n)|))
    ensures |Encode(n)| <= MaxU32Bytes
  {
    assert Pow128(5) == 0x8_0000_0000;
    EncodeFits(n, 5);
    GroupsEncode(n, rest);
  }

  lemma {:induction false} GroupsLocal(s: seq<Byte>, t: seq<Byte>)
    requires Groups(s).Some?
    requires Groups(s).value.1 <= |t|
    requires t[..Groups(s).value.1] == s[..Groups(s).value.1]
    ensures Groups(t) == Groups(s)
  {
    var n := Groups(s).value.1;
    assert t[0] == t[..n][0] == s[..n][0] == s[0];
    if s[0] >= 128 {
      assert t[1..][..n - 1] == t[..n][1..] == s[..n][1..] == s[1..][..n - 1];
      GroupsLocal(s[1..], t[1..]);
    }
  }

  /** A successful read looks only at the bytes it consumes: any input that
      agrees on them reads the same value and length. */
  lemma ReadLocal(s: seq<Byte>, t: seq<Byte>)
    requires ReadVarU32(s).Some?
    requires ReadVarU32(s).value.1 <= |t|
    requires t[..ReadVarU32(s).value.1] == s[..ReadVarU32(s).value.1]
    ensures ReadVarU32(t) == ReadVarU32(s)
  {
    GroupsLocal(s, t);
  }

  lemma {:induction false} GroupsTruncated(s: seq<Byte>, m: nat)
    requires Groups(s).Some? && m < Groups(s).value.1
    ensures Groups(s[..m]).None?
  {
    if m > 0 {
      assert s[..m][0] == s[0];
      assert s[..m][1..] == s[1..][..m - 1];
      GroupsTruncated(s[1..], m - 1);
    }
  }

  /** Cutting a successfully read integer short makes it unreadable: the
      decoder never reports a value for an encoding that runs off the end. */
  lemma ReadTruncated(s: seq<Byte>, m: nat)
    requires ReadVarU32(s).Some? && m < ReadVarU32(s).value.1
    ensures ReadVarU32(s[..m]).None?
  {
    GroupsTruncated(s, m);
  }
}

=== FILE: paths.dfy ===
/** Unix paths as the standard library's `Path` sees them: a sequence of
    components. A leading `/` is the root; empty pieces and `.` pieces are
    skipped, except a `.` that starts a relative path; `..` is the parent
    component; every other piece is a normal name. */
module Paths {
  import opened Bytes

  datatype Component = RootDir | CurDir | ParentDir | Normal(name: string)

  /** A path, as the sequence of its components. */
  type Path = seq<Component>

  /** A name that can stand as a normal component. */
  predicate NormalName(name: string) {
    name != "" && name != "." && name != ".." && '/' !in name
  }

  /** The component a piece between separators stands for, if any. */
  function PieceComponent(piece: string): (r: seq<Component>)
    requires '/' !in piece
    ensures r == [] <==> piece == "" || piece == "."
    ensures r == [ParentDir] <==> piece == ".."
    ensures NormalName(piece) ==> r == [Normal(piece)]
    ensures forall i :: 0 <= i < |r| ==> r[i] == ParentDir || (r[i].Normal? && NormalName(r[i].name))
  {
    if piece == "" || piece == "." then []
    else if piece == ".." then [ParentDir]
    else [Normal(piece)]
  }

  /** The components of the `/`-separated pieces of `piece + s`, read one
      character at a time: `piece` holds what was read since the last
      separator, and each separator closes it. */
  function PiecesFrom(piece: string, s: string): (r: Path)
    requires '/' !in piece
    ensures forall i :: 0 <= i < |r| ==> r[i] == ParentDir || (r[i].Normal? && NormalName(r[i].name))
    decreases |s|
  {
    if s == [] then PieceComponent(piece)
    else if s[0] == '/' then PieceComponent(piece) + PiecesFrom("", s[1..])
    else PiecesFrom(piece + [s[0]], s[1..])
  }

  /** The components of the `/`-separated pieces of `s`. */
  function Pieces(s: string): (r: Path)
    ensures forall i :: 0 <= i < |r| ==> r[i] == ParentDir || (r[i].Normal? && NormalName(r[i].name))
  {
    PiecesFrom("", s)
  }

  /** The components of a path: the root or a leading `.` first, when the
      path has one, then its pieces. Only the first component can be the
      root or `.`; all others are `..` or well-formed names. */
  function Components(p: string): (r: Path)
    ensures r != [] && r[0] == RootDir <==> p != [] && p[0] == '/'
    ensures r != [] && r[0] == CurDir <==> p == "." || (|p| >= 2 && p[..2] == "./")
    ensures forall i :: 0 < i < |r| ==> r[i] == ParentDir || (r[i].Normal? && NormalName(r[i].name))
  {
    if p != [] && p[0] == '/' then [RootDir] + Pieces(p[1..])
    else if p == "." || (|p| >= 2 && p[..2] == "./") then [CurDir] + Pieces(p[1..])
    else Pieces(p)
  }

  /** `base` is a prefix of `path`, component for component. */
  predicate IsPrefix(base: Path, path: Path) {
    |base| <= |path| && path[..|base|] == base
  }

  /** Removes `base` from the front of `path`, comparing whole components;
      fails when `path` does not start with `base`. */
  function StripPrefix(path: Path, base: Path): (r: Option<Path>)
    ensures r.Some? <==> IsPrefix(base, path)
    ensures r.Some? ==> path == base + r.value
  {
    if base == [] then Some(path)
    else if path == [] || path[0] != base[0] then None
    else match StripPrefix(path[1..], base[1..])
      case None => None
      case Some(rest) => Some(rest)
  }

  /** Stripping a prefix undoes joining it on. */
  lemma StripJoined(base: Path, rest: Path)
    ensures StripPrefix(base + rest, base) == Some(rest)
  {
    assert (base + rest)[..|base|] == base;
  }

  /** Characters with no separator only extend the current piece. */
  lemma {:induction false} PiecesFromWhole(piece: string, s: string)
    requires '/' !in piece && '/' !in s
    ensures PiecesFrom(piece, s) == PieceComponent(piece + s)
    decreases |s|
  {
    if s == [] {
      assert piece + s == piece;
    } else {
      assert s[0] in s;
      assert (piece + [s[0]]) + s[1..] == piece + s;
      PiecesFromWhole(piece + [s[0]], s[1..]);
    }
  }

  /** A piece with no separator is one normal component. */
  lemma OnePiece(s: string)
    requires NormalName(s)
    ensures Pieces(s) == [Normal(s)]
  {
    PiecesFromWhole("", s);
    assert "" + s == s;
  }

  /** A separator closes the current piece: the rest is read afresh. */
  lemma {:induction false} PiecesFromSplit(piece: string, a: string, b: string)
    requires '/' !in piece
    ensures PiecesFrom(piece, a + "/" + b) == PiecesFrom(piece, a) + Pieces(b)
    decreases |a|
  {
    var s := a + "/" + b;
    if a == [] {
      assert s[0] == '/' && s[1..] == b;
    } else {
      assert s[0] == a[0] && s[1..] == a[1..] + "/" + b;
      if a[0] == '/' {
        PiecesFromSplit("", a[1..], b);
        AppendAssoc(PieceComponent(piece), PiecesFrom("", a[1..]), Pieces(b));
      } else {
        PiecesFromSplit(piece + [a[0]], a[1..], b);
      }
    }
  }

  /** A separator splits the pieces: the components of `a/b` are those of
      `a` followed by those of `b`. With `OnePiece`, `DotPieces` and
      `Pieces("") == []` this fixes the components of every string. */
  lemma PiecesSplit(a: string, b: string)
    ensures Pieces(a + "/" + b) == Pieces(a) + Pieces(b)
  {
    PiecesFromSplit("", a, b);
  }

  /** `.` and `..` on their own: `.` is skipped, `..` is the parent. */
  lemma DotPieces()
    ensures Pieces("") == []
    ensures Pieces(".") == []
    ensures Pieces("..") == [ParentDir]
  {
    PiecesFromWhole("", ".");
    assert "" + "." == ".";
    PiecesFromWhole("", "..");
    assert "" + ".." == "..";
  }

  /** The components of `/t/`: the root, then `t`; the trailing `/` adds
      nothing. */
  lemma ComponentsRootDirSlash()
    ensures Components("/t/") == [RootDir, Normal("t")]
  {
    assert "/t/"[1..] == "t" + "/" + "";
    PiecesSplit("t", "");
    OnePiece("t");
  }

  /** The components of `/t/x`. */
  lemma ComponentsRootFile()
    ensures Components("/t/x") == [RootDir, Normal("t"), Normal("x")]
  {
    assert "/t/x"[1..] == "t" + "/" + "x";
    PiecesSplit("t", "x");
    OnePiece("t");
    OnePiece("x");
  }

  /** A prefix is removed when it matches whole components, whatever
      trailing `/` it carries. */
  lemma StripWholeComponents()
    ensures StripPrefix(Components("/t/x"), Components("/t/")) == Some([Normal("x")])
  {
    ComponentsRootDirSlash();
    ComponentsRootFile();
    StripJoined([RootDir, Normal("t")], [Normal("x")]);
  }

  /** A prefix that matches only the first characters of a component is
      refused: `/a` is not a prefix of `/ab`. */
  lemma StripPartialComponent()
    ensures StripPrefix(Components("/ab"), Components("/a")) == None
  {
    assert "/ab"[1..] == "ab";
    OnePiece("ab");
    assert "/a"[1..] == "a";
    OnePiece("a");
    assert Components("/ab") == [RootDir, Normal("ab")];
    assert Components("/a") == [RootDir, Normal("a")];
    assert Normal("ab") != Normal("a");
  }
}

=== FILE: readpaths.dfy ===
/** Reading the list of paths: the input text is cut into lines, each line
    including its `\n` when it has one, and every line, stripped of its
    trailing whitespace, is one path. */
module PathList {
  import opened Bytes

  /** Whitespace as the Unicode White_Space property defines it, which is
      what trimming removes. */
  predicate IsWhitespace(c: char) {
    var u := c as int;
    (0x09 <= u <= 0x0D) || u == 0x20 || u == 0x85 || u == 0xA0 || u == 0x1680
    || (0x2000 <= u <= 0x200A) || u == 0x2028 || u == 0x2029 || u == 0x202F
    || u == 0x205F || u == 0x3000
  }

  /** The line with trailing whitespace removed: the longest prefix that
      does not end in whitespace, all of whose removed characters are
      whitespace. */
  function TrimEnd(s: string): (r: string)
    ensures |r| <= |s| && r == s[..|r|]
    ensures r == [] || !IsWhitespace(r[|r| - 1])
    ensures forall j :: |r| <= j < |s| ==> IsWhitespace(s[j])
  {
    if s == [] || !IsWhitespace(s[|s| - 1]) then s
    else TrimEnd(s[..|s| - 1])
  }

  /** The length of the first line of a non-empty text: up to and including
      the first `\n`, or the whole text when it has none. */
  function LineLength(s: string): (n: nat)
    requires s != []
    ensures 1 <= n <= |s|
    ensures forall j :: 0 <= j < n - 1 ==> s[j] != '\n'
    ensures s[n - 1] == '\n' || n == |s|
  {
    if s[0] == '\n' || |s| == 1 then 1 else 1 + LineLength(s[1..])
  }

  /** The lines of a text, in order, each with its `\n` if it has one. */
  function Lines(s: string): (r: seq<string>)
    ensures |r| <= |s|
    ensures r == [] <==> s == []
    ensures forall i :: 0 <= i < |r| ==> r[i] != []
    decreases |s|
  {
    if s == [] then [] else [s[..LineLength(s)]] + Lines(s[LineLength(s)..])
  }

  /** The text the lines are cut from, put back together. */
  function Concat(ls: seq<string>): string
  {
    if ls == [] then [] else ls[0] + Concat(ls[1..])
  }

  /** The number of `\n` characters in a text. */
  function Newlines(s: string): nat
  {
    if s == [] then 0 else (if s[0] == '\n' then 1 else 0) + Newlines(s[1..])
  }

  /** The input still to be read, from which whole lines are taken. */
  class LineReader {
    var rest: string

    constructor (input: string)
      ensures rest == input
    {
      rest := input;
    }

    /** Reads the next line, its `\n` included; at the end of the input it
        reads nothing. */
    method ReadLine() returns (line: string)
      modifies this
      ensures old(rest) == line + rest
      ensures line == [] <==> old(rest) == []
      ensures old(rest) != [] ==> Lines(old(rest)) == [line] + Lines(rest)
    {
      if rest == [] {
        line := [];
      } else {
        var n := LineLength(rest);
        line := rest[..n];
        rest := rest[n..];
        assert old(rest) == line + rest;
      }
    }
  }

  /** Reads lines until a read returns nothing, keeping each line without
      its trailing whitespace: one path per line of the input, in order. */
  method ReadPaths(reader: LineReader) returns (paths: seq<string>)
    modifies reader
    ensures reader.rest == []
    ensures |paths| == |Lines(old(reader.rest))|
    ensures forall i :: 0 <= i < |paths| ==> paths[i] == TrimEnd(Lines(old(reader.rest))[i])
  {
    ghost var all := Lines(reader.rest);
    ghost var read: seq<string> := [];
    paths := [];
    while true
      invariant all == read + Lines(reader.rest)
      invariant |paths| == |read|
      invariant forall i :: 0 <= i < |paths| ==> paths[i] == TrimEnd(read[i])
      decreases |reader.rest|
    {
      ghost var before := reader.rest;
      var line := reader.ReadLine();
      if |line| == 0 {
        break;
      }
      var path := TrimEnd(line);
      paths := paths + [path];
      AppendAssoc(read, [line], Lines(reader.rest));
      read := read + [line];
    }
    assert read + [] == read;
  }

  /** The lines put back together are the text: nothing is lost or added. */
  lemma {:induction false} LinesJoin(s: string)
    ensures Concat(Lines(s)) == s
    decreases |s|
  {
    if s != [] {
      var n := LineLength(s);
      var line, rest := s[..n], s[n..];
      LinesJoin(rest);
      assert Concat(Lines(s)) == line + Concat(Lines(rest)) by {
        var ls := Lines(s);
        assert ls == [line] + Lines(rest);
        assert ls[0] == line && ls[1..] == Lines(rest);
      }
      TakeDrop(s, n);
    }
  }

  /** Every line is non-empty, has no `\n` but at its end, and every line
      but the last ends with `\n`. */
  lemma {:induction false} LinesShape(s: string)
    ensures forall i :: 0 <= i < |Lines(s)| ==> Lines(s)[i] != []
    ensures forall i, j :: 0 <= i < |Lines(s)| && 0 <= j < |Lines(s)[i]| - 1 ==> Lines(s)[i][j] != '\n'
    ensures forall i :: 0 <= i < |Lines(s)| - 1 ==> Lines(s)[i][|Lines(s)[i]| - 1] == '\n'
    decreases |s|
  {
    if s != [] {
      var n := LineLength(s);
      LinesShape(s[n..]);
      var ls := Lines(s);
      var tail := Lines(s[n..]);
      assert ls == [s[..n]] + tail;
      forall i | 1 <= i < |ls| ensures ls[i] == tail[i - 1] {
      }
      if |ls| > 1 {
        assert s[n..] != [];
      }
    }
  }

  /** The number of lines is the number of `\n` characters, plus one when
      the text does not end with one: a final `\n` does not start an extra,
      empty line. */
  lemma {:induction false} LinesCount(s: string)
    ensures |Lines(s)| == Newlines(s) + (if s != [] && s[|s| - 1] != '\n' then 1 else 0)
    decreases |s|
  {
    if s != [] {
      var n := LineLength(s);
      LinesCount(s[n..]);
      NewlinesSplit(s, n);
      NewlinesPrefix(s[..n]);
      if n < |s| {
        assert s[n..][|s[n..]| - 1] == s[|s| - 1];
      }
    }
  }

  lemma {:induction false} NewlinesSplit(s: string, n: nat)
    requires n <= |s|
    ensures Newlines(s) == Newlines(s[..n]) + Newlines(s[n..])
    decreases n
  {
    if n > 0 {
      NewlinesSplit(s[1..], n - 1);
      assert s[..n][1..] == s[1..][..n - 1];
      assert s[n..] == s[1..][n - 1..];
    }
  }

  /** A line holds exactly one `\n` when it ends with one, none otherwise. */
  lemma {:induction false} NewlinesPrefix(t: string)
    requires forall j :: 0 <= j < |t| - 1 ==> t[j] != '\n'
    ensures Newlines(t) == if t != [] && t[|t| - 1] == '\n' then 1 else 0
    decreases |t|
  {
    if t != [] {
      NewlinesPrefix(t[1..]);
      if |t| > 1 {
        assert t[1..][|t| - 2] == t[|t| - 1];
      }
    }
  }

  /** No path holds a `\n`: the only one a line can have is its last
      character, which trimming removes. */
  lemma PathsOnOneLine(s: string)
    ensures forall i :: 0 <= i < |Lines(s)| ==> '\n' !in TrimEnd(Lines(s)[i])
  {
    LinesShape(s);
    forall i | 0 <= i < |Lines(s)| ensures '\n' !in TrimEnd(Lines(s)[i]) {
      var line := Lines(s)[i];
      var t := TrimEnd(line);
      forall j | 0 <= j < |t| ensures t[j] != '\n' {
        assert t[j] == line[j];
        if j == |line| - 1 {
          assert IsWhitespace('\n');
        }
      }
    }
  }
}

=== FILE: roundtrip.dfy ===
/** What the rewriter's two stages promise together: filtering a module and
    then appending a frame named `section` gives a module that reads to its
    end, and filtering that result again takes the frame back out. */
module Bundle {
  import opened Bytes
  import opened Leb128
  import opened Utf8
  import opened WasmBinary
  import opened ModuleFilter
  import opened SectionAppender

  /** The filter's output with a frame appended reads as the kept units of
      the input followed by the frame as one custom section; filtering it
      with the same name gives back exactly the filter's first output. */
  lemma FilterAppendRoundTrip(section: seq<Byte>, input: seq<Byte>, archive: seq<Byte>)
    requires ValidUtf8(section) && |section| <= MaxNameSize
    requires |NameField(section)| + |archive| < U32Limit
    requires Filtered(section, input).Ok?
    ensures ScanModule(Filtered(section, input).value + Frame(section, archive))
         == Scanned(Kept(section, ScanModule(input).units)
                    + [Unit(Custom(section), Frame(section, archive))], None)
    ensures Filtered(section, Filtered(section, input).value + Frame(section, archive))
         == Filtered(section, input)
  {
    var out := Filtered(section, input).value;
    var k := Kept(section, ScanModule(input).units);
    var u := Unit(Custom(section), Frame(section, archive));
    FilterOutput(section, input);
    FrameFramed(section, archive);
    assert Flatten([u]) == u.bytes + Flatten([]);
    assert Flatten([u]) == Frame(section, archive);
    ModuleAppend(out, [u]);
    KeptAppend(section, k, [u]);
    KeptCons(section, u, []);
    assert Kept(section, [u]) == [] by {
      assert [u] == [u] + [];
    }
    KeptTwice(section, ScanModule(input).units);
    assert Kept(section, k + [u]) == k;
  }

  /** For a module with no custom section named `section`, filtering it and
      appending the frame, then filtering again, gives back the module
      itself, byte for byte. */
  lemma BundleRestores(section: seq<Byte>, input: seq<Byte>, archive: seq<Byte>)
    requires ValidUtf8(section) && |section| <= MaxNameSize
    requires |NameField(section)| + |archive| < U32Limit
    requires ValidModule(input)
    requires forall i :: 0 <= i < |ScanModule(input).units| ==> !Dropped(section, ScanModule(input).units[i])
    ensures Filtered(section, input) == Ok(input)
    ensures Filtered(section, input + Frame(section, archive)) == Ok(input)
  {
    FilterPassThrough(section, input);
    FilterAppendRoundTrip(section, input, archive);
  }

  /** Bundling a bundled module again replaces its frame: filtering the
      bundle with the same name and appending a new frame gives the first
      filter output followed by the new frame alone. */
  lemma RebundleReplaces(section: seq<Byte>, input: seq<Byte>, first: seq<Byte>, second: seq<Byte>)
    requires ValidUtf8(section) && |section| <= MaxNameSize
    requires |NameField(section)| + |first| < U32Limit
    requires Filtered(section, input).Ok?
    ensures Filtered(section, Filtered(section, input).value + Frame(section, first)).Ok?
    ensures Filtered(section, Filtered(section, input).value + Frame(section, first)).value
              + Frame(section, second)
         == Filtered(section, input).value + Frame(section, second)
  {
    FilterAppendRoundTrip(section, input, first);
  }

  /** A name longer than the parser reads breaks the round trip: the
      filter refuses the bundle the appender writes for it. */
  lemma LongNameRefused(section: seq<Byte>, input: seq<Byte>, archive: seq<Byte>)
    requires MaxNameSize < |section|
    requires |NameField(section)| + |archive| < U32Limit
    requires Filtered(section, input).Ok?
    ensures Filtered(section, Filtered(section, input).value + Frame(section, archive))
         == Err(InvalidInput)
  {
    var out := Filtered(section, input).value;
    var f := Frame(section, archive);
    FilterOutput(section, input);
    FrameRefused(section, archive, []);
    assert f + [] == f;
    ModuleThen(out, f);
  }
}

=== FILE: sections.dfy ===
/** The top-level structure of a WebAssembly binary module, read the way the
    rewriter needs it: the 8-byte preamble, then sections, each an id byte,
    a `u32` byte count in LEB128 and that many payload bytes (sections
    5.5.2 and 5.5.3 of the WebAssembly Core Specification). Every unit keeps
    its exact bytes, so copying a unit through reproduces the input. */
module WasmBinary {
  import opened Bytes
  import opened Leb128
  import opened Utf8

  /** Magic `\0asm` followed by version 1, little-endian. */
  const Preamble: seq<Byte> := [0x00, 0x61, 0x73, 0x6D, 0x01, 0x00, 0x00, 0x00]

  /** Magic `\0asm` followed by version 0x0d, the experimental version
      used before the binary format settled on version 1, which the
      parser still accepts. */
  const DraftPreamble: seq<Byte> := [0x00, 0x61, 0x73, 0x6D, 0x0D, 0x00, 0x00, 0x00]

  /** The length of a preamble, whichever version it carries. */
  const PreambleSize: nat := 8

  /** `buf` starts with a preamble the parser accepts. */
  predicate HasPreamble(buf: seq<Byte>) {
    |buf| >= PreambleSize && (buf[..PreambleSize] == Preamble || buf[..PreambleSize] == DraftPreamble)
  }

  /** The longest name the parser reads, in bytes. */
  const MaxNameSize: nat := 100000

  /** The id of a custom section. */
  const CustomId: Byte := 0

  /** Section ids are read as 7-bit values: every id below this one is a
      section. An id for which the parser has no reader (such as 0x7F,
      which no version of the format defines) is still reported as a
      section and copied through as its raw bytes. */
  const IdLimit: Byte := 0x80

  /** What a unit of the module is: the preamble, a custom section with its
      name, or any other section, kept opaque and known only by its id. */
  datatype Kind = Header | Custom(name: seq<Byte>) | Standard(id: Byte)

  /** A parsed unit and the exact bytes it occupies in the module. */
  datatype Unit = Unit(kind: Kind, bytes: seq<Byte>)

  /** The units parsed from the front of a buffer, in order, and the error
      that stopped the walk, if one did. */
  datatype Scanned = Scanned(units: seq<Unit>, error: Option<Error>)

  /** Reads a custom section's name from the front of its payload: a `u32`
      length of at most `MaxNameSize`, then that many bytes, which must be
      well-formed UTF-8 and lie inside the payload. */
  function ReadName(payload: seq<Byte>): (r: Option<seq<Byte>>)
    ensures r.Some? ==> ValidUtf8(r.value)
    ensures r.Some? ==> |r.value| < |payload|
    ensures r.Some? ==> |r.value| <= MaxNameSize
  {
    match ReadVarU32(payload)
    case None => None
    case Some((len, k)) =>
      if len <= MaxNameSize && k + len <= |payload| && ValidUtf8(payload[k..k + len]) then
        Some(payload[k..k + len])
      else None
  }

  /** The shape of a name that reads successfully: a well-formed length
      and that many bytes of UTF-8 after it. */
  lemma ReadNameAt(payload: seq<Byte>, len: nat, k: nat)
    requires ReadVarU32(payload) == Some((len, k))
    requires len <= MaxNameSize && k + len <= |payload| && ValidUtf8(payload[k..k + len])
    ensures ReadName(payload) == Some(payload[k..k + len])
  {
  }

  /** Reads one section from the front of `t`: its id must be a 7-bit
      value, its byte count must be a well-formed `u32` and the
      payload must fit in `t`; a custom section must also carry a readable
      name. Nothing inside any other section is looked at. */
  function ParseSection(t: seq<Byte>): (r: Result<Unit>)
    requires |t| > 0
    ensures r.Ok? ==> 2 <= |r.value.bytes| <= |t| && r.value.bytes == t[..|r.value.bytes|]
    ensures r.Ok? ==> (r.value.kind.Custom? <==> t[0] == CustomId)
    ensures r.Ok? ==> !r.value.kind.Header? && (r.value.kind.Standard? ==> r.value.kind.id == t[0])
    ensures IdLimit <= t[0] ==> r.Err?
    ensures r.Err? ==> r.error == InvalidInput
  {
    if t[0] >= IdLimit then Err(InvalidInput)
    else match ReadVarU32(t[1..])
      case None => Err(InvalidInput)
      case Some((size, k)) =>
        var end := 1 + k + size;
        if end > |t| then Err(InvalidInput)
        else if t[0] == CustomId then
          match ReadName(t[1 + k..end])
          case None => Err(InvalidInput)
          case Some(name) => Ok(Unit(Custom(name), t[..end]))
        else Ok(Unit(Standard(t[0]), t[..end]))
  }

  /** The shape of a custom section that reads successfully: id 0, a byte
      count that fits, and a readable name at the front of the payload. */
  lemma ParseCustom(t: seq<Byte>, size: nat, k: nat, name: seq<Byte>)
    requires t != [] && t[0] == CustomId
    requires ReadVarU32(t[1..]) == Some((size, k))
    requires 1 + k + size <= |t|
    requires ReadName(t[1 + k..1 + k + size]) == Some(name)
    ensures ParseSection(t) == Ok(Unit(Custom(name), t[..1 + k + size]))
  {
  }

  /** The shape of any other section that reads successfully: a nonzero
      7-bit id, and a byte count that fits. */
  lemma ParseStandard(t: seq<Byte>, size: nat, k: nat)
    requires t != [] && CustomId < t[0] < IdLimit
    requires ReadVarU32(t[1..]) == Some((size, k))
    requires 1 + k + size <= |t|
    ensures ParseSection(t) == Ok(Unit(Standard(t[0]), t[..1 + k + size]))
  {
  }

  /** Walks the sections at the front of `t` until it is used up or a
      section cannot be read. */
  function ScanSections(t: seq<Byte>): (r: Scanned)
    ensures r.error == None || r.error == Some(InvalidInput)
    decreases |t|
  {
    if t == [] then Scanned([], None)
    else match ParseSection(t)
      case Err(e) => Scanned([], Some(e))
      case Ok(u) =>
        var rest := ScanSections(t[|u.bytes|..]);
        Scanned([u] + rest.units, rest.error)
  }

  /** Walks a whole module: the preamble, then its sections. */
  function ScanModule(buf: seq<Byte>): (r: Scanned)
    ensures r.error == None || r.error == Some(InvalidInput)
    ensures !HasPreamble(buf) ==> r == Scanned([], Some(InvalidInput))
    ensures HasPreamble(buf) ==> r.units != [] && r.units[0] == Unit(Header, buf[..PreambleSize])
  {
    if HasPreamble(buf) then
      var rest := ScanSections(buf[PreambleSize..]);
      Scanned([Unit(Header, buf[..PreambleSize])] + rest.units, rest.error)
    else Scanned([], Some(InvalidInput))
  }

  /** A module the walker reads to its end without error. */
  predicate ValidModule(buf: seq<Byte>) {
    ScanModule(buf).error.None?
  }

  /** The bytes of the units, one after another. */
  function Flatten(us: seq<Unit>): seq<Byte>
  {
    if us == [] then [] else us[0].bytes + Flatten(us[1..])
  }

  /** A unit that, on its own, parses back as exactly itself. */
  predicate Framed(u: Unit) {
    |u.bytes| > 0 && ParseSection(u.bytes) == Ok(u)
  }

  lemma {:induction false} FlattenAppend(us: seq<Unit>, vs: seq<Unit>)
    ensures Flatten(us + vs) == Flatten(us) + Flatten(vs)
  {
    if us == [] {
      assert us + vs == vs;
    } else {
      assert (us + vs)[0] == us[0];
      assert (us + vs)[1..] == us[1..] + vs;
      FlattenAppend(us[1..], vs);
    }
  }

  /** A section parse looks only at the bytes of the section it reports:
      any buffer that starts with those bytes parses to the same unit. */
  lemma ParseLocal(t: seq<Byte>, t': seq<Byte>)
    requires |t| > 0 && ParseSection(t).Ok?
    requires |ParseSection(t).value.bytes| <= |t'|
    requires t'[..|ParseSection(t).value.bytes|] == ParseSection(t).value.bytes
    ensures ParseSection(t') == ParseSection(t)
  {
    var u := ParseSection(t).value;
    var n := |u.bytes|;
    assert t'[..n] == t[..n];
    assert t'[0] == t'[..n][0] == t[0];
    var rd := ReadVarU32(t[1..]);
    var size, k := rd.value.0, rd.value.1;
    assert 1 + k + size == n;
    Slices(t, n, 1, 1 + k);
    Slices(t', n, 1, 1 + k);
    ReadLocal(t[1..], t'[1..]);
    Slices(t, n, 1 + k, n);
    Slices(t', n, 1 + k, n);
    assert t'[1 + k..n] == t[1 + k..n];
    if t[0] == CustomId {
      var name := ReadName(t[1 + k..n]).value;
      ParseCustom(t, size, k, name);
      ParseCustom(t', size, k, name);
    } else {
      ParseStandard(t, size, k);
      ParseStandard(t', size, k);
    }
  }

  /** Every unit a parse reports is framed: its bytes alone parse to it. */
  lemma ParseFramed(t: seq<Byte>)
    requires |t| > 0 && ParseSection(t).Ok?
    ensures Framed(ParseSection(t).value)
  {
    var u := ParseSection(t).value;
    assert u.bytes[..|u.bytes|] == u.bytes;
    ParseLocal(t, u.bytes);
  }

  /** A section cut short anywhere is rejected: the walker never accepts a
      section whose declared extent runs past the end of the input. */
  lemma ParseTruncated(t: seq<Byte>, m: nat)
    requires |t| > 0 && ParseSection(t).Ok?
    requires 0 < m < |ParseSection(t).value.bytes|
    ensures ParseSection(t[..m]).Err?
  {
    var u := ParseSection(t).value;
    var n := |u.bytes|;
    var rd := ReadVarU32(t[1..]);
    var size, k := rd.value.0, rd.value.1;
    var s := t[..m];
    assert s[0] == t[0];
    if m < 1 + k {
      assert s[1..] == t[1..][..m - 1];
      ReadTruncated(t[1..], m - 1);
    } else {
      assert s[1..][..k] == t[1..][..k];
      ReadLocal(t[1..], s[1..]);
    }
  }

  /** What a successful walk has read is the input, cut into units. */
  lemma {:induction false} ScanCovers(t: seq<Byte>)
    ensures |Flatten(ScanSections(t).units)| <= |t|
    ensures Flatten(ScanSections(t).units) == t[..|Flatten(ScanSections(t).units)|]
    ensures ScanSections(t).error.None? ==> Flatten(ScanSections(t).units) == t
    decreases |t|
  {
    if t != [] && ParseSection(t).Ok? {
      var u := ParseSection(t).value;
      var rest := t[|u.bytes|..];
      var sr := ScanSections(rest);
      ScanCovers(rest);
      var us := [u] + sr.units;
      assert ScanSections(t) == Scanned(us, sr.error);
      assert us[0] == u && us[1..] == sr.units;
      assert Flatten(us) == u.bytes + Flatten(sr.units);
      assert t == u.bytes + rest;
    }
  }

  /** Every unit a walk reports is framed. */
  lemma {:induction false} ScanFramed(t: seq<Byte>)
    ensures forall i :: 0 <= i < |ScanSections(t).units| ==> Framed(ScanSections(t).units[i])
    decreases |t|
  {
    if t != [] && ParseSection(t).Ok? {
      var u := ParseSection(t).value;
      var rest := t[|u.bytes|..];
      var sr := ScanSections(rest);
      ScanFramed(rest);
      ParseFramed(t);
      var us := [u] + sr.units;
      assert ScanSections(t) == Scanned(us, sr.error);
      forall i | 0 <= i < |us| ensures Framed(us[i]) {
        if i > 0 { assert us[i] == sr.units[i - 1]; }
      }
    }
  }

  lemma ConsAppend<T>(us: seq<T>, ws: seq<T>)
    requires us != []
    ensures us + ws == [us[0]] + (us[1..] + ws)
  {
  }

  lemma ScanStep(s: seq<Byte>, u: Unit)
    requires s != [] && ParseSection(s) == Ok(u)
    ensures ScanSections(s) == Scanned([u] + ScanSections(s[|u.bytes|..]).units,
                                       ScanSections(s[|u.bytes|..]).error)
  {
  }

  lemma FramedFront(u: Unit, tail: seq<Byte>)
    requires Framed(u)
    ensures u.bytes + tail != [] && ParseSection(u.bytes + tail) == Ok(u)
    ensures (u.bytes + tail)[|u.bytes|..] == tail
  {
    var s := u.bytes + tail;
    assert s[..|u.bytes|] == u.bytes;
    ParseLocal(u.bytes, s);
  }

  /** Walking bytes made of framed units, then anything else, yields those
      units and then whatever walking the rest yields. */
  lemma {:induction false} ScanConcat(us: seq<Unit>, t: seq<Byte>)
    requires forall i :: 0 <= i < |us| ==> Framed(us[i])
    ensures ScanSections(Flatten(us) + t)
         == Scanned(us + ScanSections(t).units, ScanSections(t).error)
  {
    if us == [] {
      assert Flatten(us) + t == t;
      assert us + ScanSections(t).units == ScanSections(t).units;
    } else {
      var u, vs := us[0], us[1..];
      var tail := Flatten(vs) + t;
      assert Flatten(us) + t == u.bytes + tail;
      FramedFront(u, tail);
      ScanStep(u.bytes + tail, u);
      assert forall i :: 0 <= i < |vs| ==> Framed(vs[i]) by {
        forall i | 0 <= i < |vs| ensures Framed(vs[i]) {
          assert vs[i] == us[i + 1];
        }
      }
      ScanConcat(vs, t);
      var st := ScanSections(t);
      assert ScanSections(tail) == Scanned(vs + st.units, st.error);
      assert (u.bytes + tail)[|u.bytes|..] == tail;
      assert ScanSections(u.bytes + tail) == Scanned([u] + (vs + st.units), st.error);
      ConsAppend(us, st.units);
    }
  }

  /** Bytes that follow a walk faithfully and then stop inside one of its
      sections are rejected. */
  lemma ScanCut(t: seq<Byte>, i: nat, j: nat)
    requires i < |ScanSections(t).units|
    requires 0 < j < |ScanSections(t).units[i].bytes|
    ensures ScanSections(Flatten(ScanSections(t).units[..i])
                         + ScanSections(t).units[i].bytes[..j]).error == Some(InvalidInput)
  {
    var us := ScanSections(t).units;
    var before, u := us[..i], us[i];
    var cut := u.bytes[..j];
    ScanFramed(t);
    assert forall k :: 0 <= k < |before| ==> Framed(before[k]) by {
      forall k | 0 <= k < |before| ensures Framed(before[k]) {
        assert before[k] == us[k];
      }
    }
    ScanConcat(before, cut);
    assert Framed(u);
    ParseTruncated(u.bytes, j);
    assert cut != [] && ParseSection(cut).Err?;
  }

  /** A module that reads to its end, followed by any bytes, reads as its
      units followed by the walk of those bytes. */
  lemma ModuleThen(input: seq<Byte>, t: seq<Byte>)
    requires ValidModule(input)
    ensures ScanModule(input + t)
         == Scanned(ScanModule(input).units + ScanSections(t).units, ScanSections(t).error)
  {
    var head := input[..PreambleSize];
    var body := input[PreambleSize..];
    var rest := ScanSections(body).units;
    ScanCovers(body);
    ScanFramed(body);
    ScanConcat(rest, t);
    AppendSplit(head, body);
    assert input == head + body;
    AppendAssoc(head, body, t);
    AppendSplit(head, body + t);
    AppendAssoc([Unit(Header, head)], rest, ScanSections(t).units);
  }

  /** Appending framed units to a module that reads to its end gives a
      module that reads to its end, with those units after the old ones. */
  lemma ModuleAppend(input: seq<Byte>, us: seq<Unit>)
    requires ValidModule(input)
    requires forall i :: 0 <= i < |us| ==> Framed(us[i])
    ensures ScanModule(input + Flatten(us)) == Scanned(ScanModule(input).units + us, None)
  {
    ModuleThen(input, Flatten(us));
    ScanConcat(us, []);
    assert Flatten(us) + [] == Flatten(us) && us + [] == us;
  }
}

=== FILE: utf8.dfy ===
/** Well-formed UTF-8 (table 3-7 of the Unicode Standard), which a custom
    section's name must be (section 5.2.4, Names, of the WebAssembly Core
    Specification). */
module Utf8 {
  import opened Bytes

  predicate Continuation(b: Byte) {
    0x80 <= b <= 0xBF
  }

  /** `s` is a sequence of well-formed UTF-8 scalar-value encodings: no
      overlong forms, no surrogates, nothing above U+10FFFF. */
  predicate ValidUtf8(s: seq<Byte>)
    decreases |s|
  {
    if s == [] then true
    else if s[0] < 0x80 then ValidUtf8(s[1..])
    else if 0xC2 <= s[0] <= 0xDF then
      |s| >= 2 && Continuation(s[1]) && ValidUtf8(s[2..])
    else if s[0] == 0xE0 then
      |s| >= 3 && 0xA0 <= s[1] <= 0xBF && Continuation(s[2]) && ValidUtf8(s[3..])
    else if 0xE1 <= s[0] <= 0xEC || 0xEE <= s[0] <= 0xEF then
      |s| >= 3 && Continuation(s[1]) && Continuation(s[2]) && ValidUtf8(s[3..])
    else if s[0] == 0xED then
      |s| >= 3 && 0x80 <= s[1] <= 0x9F && Continuation(s[2]) && ValidUtf8(s[3..])
    else if s[0] == 0xF0 then
      |s| >= 4 && 0x90 <= s[1] <= 0xBF && Continuation(s[2]) && Continuation(s[3])
      && ValidUtf8(s[4..])
    else if 0xF1 <= s[0] <= 0xF3 then
      |s| >= 4 && Continuation(s[1]) && Continuation(s[2]) && Continuation(s[3])
      && ValidUtf8(s[4..])
    else if s[0] == 0xF4 then
      |s| >= 4 && 0x80 <= s[1] <= 0x8F && Continuation(s[2]) && Continuation(s[3])
      && ValidUtf8(s[4..])
    else false
  }
}
